=== FILE: README.md ===
# Events directory: a Dafny model of the filtering pipeline and its state

This project models the logic core of an events-directory web app. The app
loads a list of events and gates them by the viewer's permission:
unauthenticated viewers see only public events. It then narrows the list
by a free-text search, a category and an access selection, and orders it by
one of three sort modes. Alongside the list it shows category counts, access
counts and header statistics. The state around this pipeline is modelled too:

- the fetch status of the event list;
- a boolean sign-in flag kept in the browser's storage;
- the login form;
- the storage-backed value cell underneath the flag.

Everything is modelled as immutable datatypes and pure functions over `seq<Event>`.

Modules, one per concern of the program:

- `Seqs`: Option, order-preserving `Filter`, counting, `Take`.
- `Text`: the string operations used: `trim`, ASCII case mapping, `includes`, `join`, `split(" ")`, `replace`.
- `Sorting`: the stable sort that `Array.prototype.sort` must be.
- `Events`: the event record.
- `Filters`: `src/lib/filters.ts`.
- `EventStore`: `src/hooks/useEvents.ts`.
- `EventCard`: `src/components/events/EventCard.tsx`.
- `EventList`: `src/components/events/EventList.tsx`.
- `Page`: `app/page.tsx`.
- `EventFilters`: `src/hooks/useEventFilters.ts`.
- `LocalStorage`: `src/hooks/useLocalStorage.ts`.
- `Auth`: `src/context/AuthContext.tsx`.
- `LoginForm`: `src/components/auth/LoginForm.tsx`, submitted from its caller `app/login/page.tsx`.

Some values come from outside the modelled code and enter as parameters:

- `localeCompare` enters as `collate`. The model requires that `collate(a, b) <= 0` is a total preorder.
- `JSON.parse` and `JSON.stringify` enter as `parse` and `serialize`. A parse that throws is `None`.
- `validateCredentials` enters as `validate`.
- `AUTH_STORAGE_KEY` enters as `key`.
- The browser's storage is a `map<string, string>`. It is `None` where there is no `window`.
- A fetch is its outcome: data, or a thrown value.

React hooks are modelled as explicit state records with transition functions. Each transition includes the effects of the render it causes.

Two behaviours of the code are worth noting:

- A failed `login` sets the flag to `false`, so a viewer who was signed in is signed out (`src/context/AuthContext.tsx:38-40`).
- The access counts are taken from the category-filtered list (`app/page.tsx:104-112`). So with a search for "hack" and the category "workshop", the counts describe only the matching workshops. They do not describe every matching event.

A third follows from the code's effect order. The cell's persist effect runs before the provider's hydrate effect (`src/hooks/useLocalStorage.ts:29-35` precedes `src/context/AuthContext.tsx:27-34`), so the hydrate effect reads the value after `JSON.stringify` has written it back. The flag is therefore set when the stored item *parses* to `true`, not only when it is the exact string `"true"`. `Auth.MountProvider` states this.

## Model

| member | source | states |
|---|---|---|
| Seqs.Filter | src/lib/filters.ts:11 | `filter` keeps exactly the elements satisfying the predicate: in order (a subsequence), each as often as in the input, nothing else |
| Seqs.FilterAppend | src/lib/filters.ts:11 | filtering a concatenation is concatenating the filtered parts |
| Seqs.FilterFilter | src/hooks/useEventFilters.ts:49-56 | two successive filters equal one filter by the conjunction |
| Seqs.FilterChain4 | src/hooks/useEventFilters.ts:49-56 | four successive filters equal one filter by any predicate pointwise equal to their conjunction |
| Seqs.FilterAll | src/lib/filters.ts:7-9 | a filter that every element passes returns its input |
| Seqs.FilterNone | app/page.tsx:106 | a filter that no element passes returns nothing |
| Seqs.FilterCommute | app/page.tsx:114-122 | two filters may be applied in either order |
| Seqs.FilterCongruent | src/lib/filters.ts:11 | filters by predicates agreeing on the input give the same list |
| Seqs.CountPartition3 | app/page.tsx:87-90 | when every element satisfies exactly one of three predicates, the three counts add up to the length |
| Seqs.CountAtMost3 | app/page.tsx:87-90 | counts of three mutually exclusive predicates never exceed the length |
| Seqs.CountComplement | app/page.tsx:105-108 | counts of a predicate and its complement add up to the length |
| Seqs.Take | src/components/events/EventList.tsx:86 | `slice(0, n)` is the prefix of length `min(n, length)` |
| Text.Trim | src/lib/filters.ts:26 | `trim` returns a contiguous piece of the input, cut only at JavaScript whitespace and line terminators, neither starting nor ending with one; it is empty exactly when the input is blank |
| Text.Lower | src/lib/filters.ts:26 | lower-casing keeps the length and maps each character |
| Text.Includes | src/lib/filters.ts:40-42 | `includes` holds exactly when the needle occurs at some position |
| Text.IncludesTransitive | src/lib/filters.ts:35-42 | a substring of a substring is a substring |
| Text.JoinContainsPart | src/lib/filters.ts:35-37 | every part of `join(" ")` occurs in the joined string |
| Text.SplitOnSpace | src/components/events/EventCard.tsx:26 | `split(" ")` returns at least one piece and no piece contains a space |
| Text.SplitOnSpaceRejoins | src/components/events/EventCard.tsx:26 | the pieces of `split(" ")` joined with one space give back the input, so no text is lost or invented |
| Text.NonEmpty | src/components/events/EventCard.tsx:27 | `filter(Boolean)` keeps every non-empty piece, in order, as often as it occurs, and nothing else |
| Text.WordsFirstChars | src/components/events/EventCard.tsx:25-29 | the first characters of the non-empty space-separated words are exactly the characters that start a word, a definition by position |
| Text.IndexOf | src/components/events/EventCard.tsx:78 | the first position holding the character, or -1 exactly when it is absent |
| Text.ReplaceFirst | src/components/events/EventCard.tsx:78 | `replace` with a one-character pattern changes only the first occurrence; every other character is kept |
| Sorting.Insert | src/lib/filters.ts:48 | inserting into a sorted list adds exactly that element and keeps it sorted |
| Sorting.Sort | src/lib/filters.ts:48 | sorting returns a permutation that is ordered by the comparator |
| Sorting.InsertPeers | src/lib/filters.ts:48 | insertion keeps every group of equal elements in input order |
| Sorting.SortStable | src/lib/filters.ts:48 | the sort is stable: elements comparing equal keep their input order |
| Sorting.SortSortedIsIdentity | src/lib/filters.ts:48 | an already sorted list comes back unchanged |
| Sorting.SortIdempotent | src/lib/filters.ts:48 | sorting twice is sorting once |
| Filters.FilterByPermission | src/lib/filters.ts:3-12 | signed in: the input itself; signed out: exactly the public events in order, an event kept iff it is public |
| Filters.FilterByEventType | src/lib/filters.ts:14-23 | "all" returns the input; any other value keeps exactly the events of that type in order, so an unknown type keeps nothing |
| Filters.NormalizeQuery | src/lib/filters.ts:26-28 | the normalised query is empty exactly when the raw query is blank |
| Filters.LowerSpeakerNames | src/lib/filters.ts:35-36 | one lower-cased name per speaker, in speaker order |
| Filters.FilterBySearch | src/lib/filters.ts:25-45 | a blank query returns the input; otherwise exactly the events whose lower-cased name, description (missing as "") or space-joined speaker names contain the normalised query, in order |
| Filters.SearchDependsOnlyOnNormalizedQuery | src/lib/filters.ts:26-30 | queries with equal trimmed, lower-cased forms give equal results |
| Filters.SpeakerNameMatchIsKept | src/lib/filters.ts:35-42 | an event one of whose speaker names contains the query is kept |
| Filters.MatchAcrossSpeakerNames | src/lib/filters.ts:35-42 | the converse fails: "b c" keeps an event with speakers "ab" and "cd" although neither name contains it |
| Filters.SortByStartTime | src/lib/filters.ts:47-49 | a permutation of the input with non-decreasing start times, equal start times in input order |
| Filters.SortByStartTimeIdempotent | src/lib/filters.ts:48 | sorting by start time twice is sorting once |
| Filters.SortByStartTimeOfSorted | src/lib/filters.ts:48 | a list already in start-time order is returned as it is |
| EventStore.ErrorMessage | src/hooks/useEvents.ts:27-28 | an `Error` contributes its message, any other thrown value "Failed to fetch events." |
| EventStore.BeginRefetch | src/hooks/useEvents.ts:20-21 | starting a refetch sets loading, clears the error and keeps the events |
| EventStore.CompleteAsWritten | src/hooks/useEvents.ts:23-32 | as written: success stores the data and leaves the error alone, failure empties the events and stores the message, loading always ends |
| EventStore.Complete | src/hooks/useEvents.ts:23-32 | corrected completion: loading ends and an error implies no events; success stores the data with no error |
| EventStore.Refetch | src/hooks/useEvents.ts:19-34 | a whole refetch ends not loading, with exactly the data and no error on success, or no events and the message on failure |
| EventStore.RefetchMatchesSource | src/hooks/useEvents.ts:19-34 | without overlapping calls the corrected and the written completions agree |
| EventStore.OverlappingRefetchKeepsStaleError | src/hooks/useEvents.ts:19-34 | as written, two overlapping refetches (first fails, second succeeds) end with both the new data and the old error |
| EventStore.OverlappingRefetchCorrected | src/hooks/useEvents.ts:19-34 | with the correction the same interleaving ends with the data and no error |
| Text.UpperAll | src/components/events/EventCard.tsx:29-30 | upper-casing keeps the length and maps each character |
| EventCard.LeadSpeakerInitials | src/components/events/EventCard.tsx:23-30 | no speakers gives "?"; otherwise the upper-cased starts of the first two words of the lead speaker's name, at most two characters |
| EventCard.TakeFirstChars | src/components/events/EventCard.tsx:28-29 | taking two words then their first characters equals taking two first characters |
| EventCard.BlankLeadSpeakerHasNoInitials | src/components/events/EventCard.tsx:24-30 | a lead speaker whose name is empty or all spaces gives "", not "?" |
| EventCard.FindById | src/components/events/EventCard.tsx:35 | `find` returns the first event with the id, and nothing exactly when no event has it |
| EventCard.Ids | src/components/events/EventCard.tsx:34-35 | the ids of a list, one per event, in order |
| EventCard.Resolve | src/components/events/EventCard.tsx:34-36 | resolving ids keeps their order and drops exactly the unknown ids; each entry is the first event with its id |
| EventCard.RelatedEvents | src/components/events/EventCard.tsx:32-38 | the ids of the related events are exactly the event's related ids that some listed event has, in their order, and each entry is the first listed event with its id |
| EventCard.ShownRelated | src/components/events/EventCard.tsx:255 | at most six related events are shown: the first ones, all of them when there are six or fewer |
| EventCard.Link | src/components/events/EventCard.tsx:224-242 | no link exactly when the chosen URL is missing or empty; "locked" exactly when it exists and the event is private to a signed-out viewer; an open link carries the private URL for private events and the public URL otherwise |
| EventCard.SignedOutNeverSeesPrivateUrl | src/components/events/EventCard.tsx:40 | a signed-out viewer is only ever handed a public event's public URL |
| EventCard.TypeLabel | src/components/events/EventCard.tsx:78 | the label is the type with only its first underscore replaced by a space |
| EventCard.TypeLabelReplacesFirstUnderscore | src/components/events/EventCard.tsx:78 | "a_b_c" becomes "a b_c": later underscores stay |
| EventCard.DescriptionShown | src/components/events/EventCard.tsx:139 | a missing description shows "No description provided."; an empty one stays empty |
| EventCard.PortraitOf | src/components/events/EventCard.tsx:90-103 | a photo exactly when the lead speaker has a non-empty picture, with the initials as fallback; the initials otherwise |
| EventCard.CardOf | src/components/events/EventCard.tsx:19-40 | a card is locked exactly for a private event seen signed out; a locked card never offers an open link; related entries are at most six events of the list; every field is the one its own member derives (type label, portrait, description, link, shown related events) |
| EventList.Cards | src/components/events/EventList.tsx:60-63 | one card per filtered event, in order |
| EventList.SelectView | src/components/events/EventList.tsx:15-86 | loading wins over everything, then a non-empty error, then an empty result; the list holds one card per event, the badge counts them, the sidebar is the first `min(8, n)` events |
| EventList.EmptyErrorIsNoError | src/components/events/EventList.tsx:20-29 | an empty error string shows the events, not the error view |
| Page.IsSortMode | app/page.tsx:19-23 | holds exactly for "start", "name" and "speakers" |
| Page.ParseSortMode | app/page.tsx:19-23 | a mode is recognised exactly when `isSortMode` holds, and names that value |
| Page.ParseSortModeRoundTrip | app/page.tsx:19-23 | every mode's value parses back to that mode |
| Page.SelectSortMode | app/page.tsx:208-212 | a recognised select value becomes the mode; anything else leaves it unchanged |
| Page.NameOrderIsTotalPreorder | app/page.tsx:31 | a consistent collation orders events by name consistently |
| Page.SpeakerOrderIsTotalPreorder | app/page.tsx:34 | descending speaker count is a consistent order |
| Page.SortEvents | app/page.tsx:25-35 | a permutation of the input, stable on ties: "start" is `sortByStartTime`, "name" is ordered by the collation, "speakers" by non-increasing speaker count |
| Page.AccessScoped | app/page.tsx:73-83 | "public" keeps exactly the public events, "private" while signed in exactly the private ones; otherwise, including "private" signed out, the input |
| Page.TypeCountsAddUp | app/page.tsx:87-90 | the three category counts never exceed the total, and add up to it when every event has one of the three categories |
| Page.EventTypeCounts | app/page.tsx:85-93 | "all" counts the searched, access-scoped list and each named chip counts that list's events of its category; the named categories never exceed "all" and add up to it when every event has one of them |
| Page.CountsIgnoreCategory | app/page.tsx:63-93 | changing the selected category never changes the chip counts |
| Page.SumSpeakersIsTotal | app/page.tsx:99 | the `reduce` sum equals the structural total of speaker counts |
| Page.TopStatsOf | app/page.tsx:95-102 | total is the permission-scoped length (everything signed in); public events never exceed it, equal it signed out, and equal the number of public events loaded; speakers are summed over the permission-scoped list |
| Page.AccessCountsOf | app/page.tsx:104-112 | counted on the category-filtered list: "public" is its public events, "private" its private events when signed in and 0 signed out, and the two add up to all |
| Page.SignedOutScopeIsPublic | app/page.tsx:104-112 | a signed-out viewer's category-filtered list has no private event to count |
| Page.FilteredEvents | app/page.tsx:114-125 | the access-scoped, category-filtered list in the selected sort mode's stable order; an event is in the feed exactly when it was loaded and passes the permission, search, category and access tests |
| Page.AccessScopedCommutes | app/page.tsx:73-83 | the access sub-filter and a category filter commute |
| Page.ChipCountMatchesFeed | app/page.tsx:85-93 | the number on a category chip is the number of events the feed shows once that chip is selected |
| Page.AccessCountMatchesFeed | app/page.tsx:104-125 | the number on the "public" button, and on "private" when signed in, is the number of events the feed shows once that button is selected |
| Page.UpcomingOf | app/page.tsx:233-252 | skeletons exactly while loading, the failure note exactly for a non-empty error, otherwise the first `min(8, n)` feed events |
| Page.UpcomingIsFeedHead | app/page.tsx:240-252 | once loaded without error the aside is the first eight filtered events, the events of the feed's first cards in the same order |
| Page.Feed | app/page.tsx:184-190 | loading shows the loading view; otherwise the list is `EventList` over the filtered events, with cards resolving against the permission-scoped list; every card shows a loaded event and none is ever locked, since a signed-out viewer is shown public events only |
| EventFilters.InitialState | src/hooks/useEventFilters.ts:34-42 | each control starts from its option when given, else from "", "all" and `true` |
| EventFilters.Active | src/hooks/useEventFilters.ts:44-46 | a supplied option wins over the hook's own state, field by field |
| EventFilters.ActiveOfInitialIsInitial | src/hooks/useEventFilters.ts:34-46 | on first render the active controls are the initial state |
| EventFilters.ControlledSettersAreIgnored | src/hooks/useEventFilters.ts:44-46 | when every control is supplied, the hook's own state has no effect |
| EventFilters.HidePrivate | src/hooks/useEventFilters.ts:51-53 | a signed-in viewer hiding private events keeps exactly the public ones; otherwise the list is unchanged |
| EventFilters.Pipeline | src/hooks/useEventFilters.ts:48-57 | the result is in non-decreasing start-time order |
| EventFilters.PermissionStageIsFilter | src/hooks/useEventFilters.ts:49 | the permission stage is a filter by its test |
| EventFilters.PrivateStageIsFilter | src/hooks/useEventFilters.ts:51-53 | the private-hiding stage is a filter by its test |
| EventFilters.SearchStageIsFilter | src/hooks/useEventFilters.ts:55 | the search stage is a filter by its test |
| EventFilters.TypeStageIsFilter | src/hooks/useEventFilters.ts:56 | the category stage is a filter by its test |
| EventFilters.StagesAreOneFilter | src/hooks/useEventFilters.ts:49-56 | the four stages are one filter by the conjunction of their tests |
| EventFilters.PipelineIsOneFilter | src/hooks/useEventFilters.ts:48-57 | the pipeline is `sortByStartTime` of one filter of the input |
| EventFilters.UseEventFilters | src/hooks/useEventFilters.ts:29-75 | returns the active controls and the start-ordered list of exactly the loaded events passing permission, private hiding, search and category |
| EventFilters.DefaultsShowEverything | src/hooks/useEventFilters.ts:34-57 | with defaults and signed in, the result is `sortByStartTime(events)` |
| EventFilters.ShowPrivateIrrelevantSignedOut | src/hooks/useEventFilters.ts:49-53 | signed out, showing or hiding private events changes nothing |
| EventFilters.HidingPrivateMatchesSignedOut | src/hooks/useEventFilters.ts:49-53 | signed in with private events hidden, the list is what a signed-out viewer gets |
| LocalStorage.GetItem | src/hooks/useLocalStorage.ts:16 | an item is found exactly when the key is stored, and is the stored string |
| LocalStorage.ReadInitial | src/hooks/useLocalStorage.ts:11-27 | the initial value with no window, no item, an empty item or an item that does not parse; else the parsed item |
| LocalStorage.Persist | src/hooks/useLocalStorage.ts:29-35 | writes the serialised value under the key and changes no other key |
| LocalStorage.Mount | src/hooks/useLocalStorage.ts:11-35 | first render reads the stored value and leaves storage and state in sync |
| LocalStorage.Commit | src/hooks/useLocalStorage.ts:29-35 | the persist effect runs exactly when the value changed |
| LocalStorage.SetValue | src/hooks/useLocalStorage.ts:37-41 | the new value is the given value or the updater applied to the previous one, storage stays in sync, and no other key is added, removed or changed |
| LocalStorage.Remove | src/hooks/useLocalStorage.ts:43-49 | the value resets to the initial one; the item stays deleted if the value was already initial, and otherwise is written back as the serialised initial value; no other key is added, removed or changed |
| LocalStorage.ReloadRestoresValue | src/hooks/useLocalStorage.ts:11-35 | a reload over synced storage reads back the held value when parsing inverts serialisation |
| LocalStorage.ReloadAfterRemoveIsInitial | src/hooks/useLocalStorage.ts:43-49 | a reload after `remove` reads the initial value in both cases |
| LocalStorage.SetThenReload | src/hooks/useLocalStorage.ts:37-41 | a value set and reloaded comes back |
| Auth.Hydrate | src/context/AuthContext.tsx:27-34 | the hydrate effect sets the flag to whether the stored item is exactly "true", and does nothing without a window; no other key is touched |
| Auth.SettledIsQuiescent | src/context/AuthContext.tsx:27-34 | the hydrate effect, which runs after every render, changes nothing once the provider is settled |
| Auth.ForeignWriteIsReadBack | src/context/AuthContext.tsx:27-34 | after an outside write to the key, the next hydrate effect signs in exactly when the item is "true" |
| Auth.MountProvider | src/context/AuthContext.tsx:21-34 | after mount the provider is settled and signed in exactly when the stored item is non-empty and parses to `true` |
| Auth.NoWindowNoSession | src/context/AuthContext.tsx:22-30 | without a window the flag stays at its default `false` |
| Auth.NonBooleanItemSignsOut | src/context/AuthContext.tsx:27-34 | a stored non-boolean JSON value signs nobody in and is overwritten by "false" |
| Auth.Login | src/context/AuthContext.tsx:36-43 | `login` returns the credential verdict and sets the flag to that same verdict, so a failure signs out; no other key of the storage is touched |
| Auth.Logout | src/context/AuthContext.tsx:45-47 | `logout` clears the flag whatever it was; no other key of the storage is touched |
| Auth.LogoutIdempotent | src/context/AuthContext.tsx:45-47 | logging out twice is logging out once |
| Auth.LoginSurvivesReload | src/context/AuthContext.tsx:36-43 | after `login`, a reload restores the verdict |
| Auth.LogoutSurvivesReload | src/context/AuthContext.tsx:45-47 | after `logout`, a reload stays signed out |
| Auth.UseAuth | src/context/AuthContext.tsx:57-65 | outside a provider `useAuth` throws "useAuth must be used within an AuthProvider."; inside it returns the provider's state |
| LoginForm.HandleSubmit | src/components/auth/LoginForm.tsx:17-28 | the viewer ends signed in exactly on valid credentials; failure shows "Invalid username or password."; success clears the error and then calls `onClose`, or throws when no `onClose` was supplied; the fields are kept |
| LoginForm.Submit | src/components/auth/LoginForm.tsx:17-28 | with `onClose` supplied, submit calls it exactly when the credentials are valid, which is exactly when the viewer ends signed in, and never throws; failure shows "Invalid username or password.", success clears the error; the fields are kept |
| LoginForm.LoginPageSubmitAsWritten | app/login/page.tsx:49 | on the login page as written, a submit throws exactly when the login succeeds and never reaches the page's success handler |
| LoginForm.LoginPageSuccessThrows | app/login/page.tsx:16-24 | as written, a successful login on the login page throws, and only the page's effect redirects home |
| LoginForm.LoginPageSubmit | app/login/page.tsx:22-24 | with the page's handler passed as `onClose`, a submit never throws and reaches the handler exactly on valid credentials |
| LoginForm.LoginPageSuccessCloses | app/login/page.tsx:22-24 | corrected, a successful login reaches the handler with no error shown and the viewer signed in |
| LoginForm.FailedSubmitSignsOut | src/components/auth/LoginForm.tsx:17-24 | a failed submit signs out even a signed-in viewer |
| LoginForm.RetryAfterFailure | src/components/auth/LoginForm.tsx:17-28 | after a failure, a corrected submit closes the dialog, leaves no error and signs the viewer in |

## Left out

- Text.Lower: `toLowerCase` is modelled on ASCII letters only. Unicode case mapping, which can change a string's length, is not modelled.
- Text.UpperAll: `toUpperCase` is modelled on ASCII letters only. JavaScript upper-casing can lengthen a string ("ß" becomes "SS"), so the bound of at most two initials in `EventCard.LeadSpeakerInitials` holds only for ASCII names.
- EventCard.LeadSpeakerInitials: `part[0]` in the source takes the first UTF-16 code unit of each word; the model takes the first Unicode scalar value, so a name starting with a character outside the Basic Multilingual Plane gives a whole character here where the source gives half a surrogate pair.
- Text.Trim: strings are sequences of Unicode scalar values, not UTF-16 code units. Lone surrogates and code-unit indexing are not modelled.
- Page.SortEvents: `localeCompare` is a parameter, required to be a consistent comparator. The result for an inconsistent comparator is not modelled.
- Page.SortEvents: the speaker comparator `b.speakers.length - a.speakers.length` is exact here because lengths are small integers. Comparators returning NaN are not modelled.
- Filters.SortByStartTime: start times are integers. NaN or non-numeric `start_time` values, which make the comparator inconsistent, are not modelled.
- Auth.MountProvider: `JSON.parse` and `JSON.stringify` are abstracted to booleans plus "any other value with its JSON text". Two things are assumed of the parser: "true" and "false" parse to the booleans, and a non-boolean value it returns has JSON text that is never empty, "true" or "false" (`Auth.JsonParse`, `Auth.WellFormed`). `Auth.MountProvider` needs the second to show the provider settled.
- LoginForm.Submit: both inputs are `required` (`src/components/auth/LoginForm.tsx:39`, `:53`), so the browser never runs the handler with an empty field. The model accepts any field values, empty ones included.
- Auth.Login: like `Auth.Logout` and `LoginForm.Submit`, it requires the provider to be settled, which assumes the storage key is written only by this provider. A write from another tab or script is not modelled as part of that invariant; only the hydrate effect's reading of such a write is (`Auth.ForeignWriteIsReadBack`).
- LocalStorage.Commit: React's `Object.is` comparison is modelled by value equality. For object values React compares identity, which the model does not have.
- `validateCredentials` and `AUTH_STORAGE_KEY` are parameters, because `src/lib/auth.ts` and `src/constants/auth.ts` are not part of this model.
- The HTTP request behind `fetchEvents` (`src/lib/api.ts`) is not part of this model. A fetch is reduced to its outcome.
- The debounce of the search bar (`src/components/filters/SearchBar.tsx`) is timer behaviour and is not modelled.
- Date formatting (`src/lib/formatting.ts`, `toLocaleString`) is not modelled. Neither is the seconds-versus-milliseconds difference between the sidebar and the card dates.
- The `"open-event-modal"` window messaging and modal open state in `EventCard.tsx` are cross-component dispatch and are not modelled.
- React scheduling (batching, memoisation, render timing) is not modelled. Each transition applies the state change and then the effects of the render it causes, in declaration order.
- Presentation-only components (layout, header, chips, skeletons, login page routing) hold no logic beyond markup and are not modelled.
- `Thrown` values other than `Error` are one case. What they contain is irrelevant to the message chosen.

## Findings

| source | as written | input that shows it | evidently intended | confidence | as-written member | corrected member |
|---|---|---|---|---|---|---|
| src/hooks/useEvents.ts:19-34 | a successful fetch stores the data and ends loading but never clears `error`; only the start of a refetch clears it | two overlapping `refetch` calls: both start, the first rejects with `Error("timeout")`, then the second resolves with `[e]`; the state ends with events `[e]` and error "timeout", so the list shows the error view although data arrived | a successful completion also clears the error, so the response that arrives last decides the state and an error always comes with no events | medium, not executed | EventStore.CompleteAsWritten, EventStore.OverlappingRefetchKeepsStaleError | EventStore.Complete, EventStore.OverlappingRefetchCorrected |
| app/login/page.tsx:49 | the login page renders `<LoginForm onSuccess={handleSuccess} />`, but the form declares only `onClose` (`src/components/auth/LoginForm.tsx:7-11`), so inside the form `onClose` is undefined; TypeScript also rejects the call | valid credentials submitted on the login page: `login` succeeds and `setError(null)` runs, then `onClose()` throws a TypeError; `handleSuccess` is never called, and the redirect comes only from the page's effect on `isAuthenticated` | the page passes its success handler as `onClose`, so a successful submit calls it and never throws | high that `onClose` is undefined; medium that the queued state updates still apply; not executed | LoginForm.LoginPageSubmitAsWritten, LoginForm.LoginPageSuccessThrows | LoginForm.LoginPageSubmit, LoginForm.LoginPageSuccessCloses |

=== FILE: auth.dfy ===
/**
 * The authentication provider: a boolean flag kept in a `useLocalStorage`
 * cell under the storage key, a hydrate effect that re-reads the stored
 * item, `login`, `logout`, and `useAuth`. The storage key and the
 * credential check enter as parameters.
 *
 * Effect order matters. On mount, the cell's persist effect (declared
 * first, inside `useLocalStorage`) writes the parsed value back before the
 * hydrate effect reads it, so the hydrate effect sees the re-serialised
 * value. Because `setValue` is a new function on every render, the hydrate
 * effect runs after every render; the model shows that after its first run
 * it changes nothing more.
 */
module Auth {
  import opened Seqs
  import opened LocalStorage

  /** A JSON value as far as the flag is concerned: a boolean, or any other value with its JSON text. */
  datatype Json = JBool(b: bool) | JOther(text: string)

  /** `JSON.stringify` */
  function Serialize(v: Json): string {
    match v
    case JBool(b) => if b then "true" else "false"
    case JOther(text) => text
  }

  /** The JSON text of a non-boolean value is never empty and never a boolean literal. */
  predicate WellFormed(v: Json) {
    v.JOther? ==> v.text != "" && v.text != "true" && v.text != "false"
  }

  /** What the model needs of `JSON.parse`: the boolean literals parse to booleans, and results are well formed. */
  ghost predicate JsonParse(parse: string -> Option<Json>) {
    && parse("true") == Some(JBool(true))
    && parse("false") == Some(JBool(false))
    && (forall s :: parse(s).Some? ==> WellFormed(parse(s).value))
  }

  /** `useLocalStorage<boolean>(AUTH_STORAGE_KEY, false)` */
  const AuthInitial: Json := JBool(false)

  /** The `isAuthenticated` the provider hands out. */
  predicate Flag(p: Cell<Json>) {
    p.value == JBool(true)
  }

  /**
   * Between events the provider holds a boolean and, when there is a
   * window, the storage holds exactly its serialisation under the key.
   */
  ghost predicate Settled(p: Cell<Json>) {
    && p.initial == AuthInitial
    && p.value.JBool?
    && (p.storage.Some? ==> p.key in p.storage.value && p.storage.value[p.key] == Serialize(p.value))
  }

  /** The hydrate effect: `setIsAuthenticated(localStorage.getItem(key) === "true")` and its render. */
  function Hydrate(c: Cell<Json>): (d: Cell<Json>)
    ensures d.key == c.key && d.initial == c.initial && d.storage.None? == c.storage.None?
    ensures c.storage.None? ==> d == c
    ensures c.storage.Some? ==> d.value == JBool(GetItem(c.storage.value, c.key) == Some("true"))
    ensures OthersUnchanged(c.storage, d.storage, c.key)
  {
    match c.storage
    case None => c
    case Some(store) => SetValue(c, Replace(JBool(GetItem(store, c.key) == Some("true"))), Serialize)
  }

  /** A settled provider is a fixed point of the hydrate effect: no further render follows. */
  lemma SettledIsQuiescent(p: Cell<Json>)
    requires Settled(p)
    ensures Hydrate(p) == p
  {
    if p.storage.Some? {
      assert GetItem(p.storage.value, p.key) == Some(Serialize(p.value));
      assert JBool(Serialize(p.value) == "true") == p.value;
    }
  }

  /** Whatever another writer leaves under the key, the next hydrate effect signs in exactly on the item "true". */
  lemma ForeignWriteIsReadBack(p: Cell<Json>, store: Store)
    ensures Flag(Hydrate(p.(storage := Some(store)))) <==> p.key in store && store[p.key] == "true"
  {
  }

  /**
   * `AuthProvider` mounted over `storage`: the cell's initialiser and
   * persist effect, then the hydrate effect. The flag is set exactly when
   * the stored item parses to `true`.
   */
  function MountProvider(storage: Option<Store>, key: string, parse: string -> Option<Json>): (p: Cell<Json>)
    requires JsonParse(parse)
    ensures p.key == key
    ensures Settled(p)
    ensures Flag(p) <==>
              storage.Some? && key in storage.value && storage.value[key] != ""
              && parse(storage.value[key]) == Some(JBool(true))
  {
    var c := Mount(storage, key, AuthInitial, parse, Serialize);
    assert WellFormed(c.value) by {
      if storage.Some? && key in storage.value && storage.value[key] != "" {
        assert parse(storage.value[key]).Some? ==> WellFormed(parse(storage.value[key]).value);
      }
    }
    assert c.storage.Some? ==> GetItem(c.storage.value, key) == Some(Serialize(c.value));
    Hydrate(c)
  }

  /** Without a window nobody is signed in. */
  lemma NoWindowNoSession(key: string, parse: string -> Option<Json>)
    requires JsonParse(parse)
    ensures !Flag(MountProvider(None, key, parse))
  {
  }

  datatype LoginResult = LoginResult(success: bool, provider: Cell<Json>)

  /** `login(username, password)`: the flag becomes the verdict of `validate`, which is also returned. */
  function Login(p: Cell<Json>, username: string, password: string,
                 validate: (string, string) -> bool): (r: LoginResult)
    requires Settled(p)
    ensures r.success == validate(username, password)
    ensures Settled(r.provider)
    ensures Flag(r.provider) == r.success
    ensures r.provider.key == p.key && r.provider.storage.None? == p.storage.None?
    ensures r.provider.storage.Some? ==> r.provider.storage.value.Keys == p.storage.value.Keys
    ensures OthersUnchanged(p.storage, r.provider.storage, p.key)
  {
    var valid := validate(username, password);
    var q := SetValue(p, Replace(JBool(valid)), Serialize);
    SettledIsQuiescent(q);
    LoginResult(valid, Hydrate(q))
  }

  /** `logout()`: the flag becomes false. */
  function Logout(p: Cell<Json>): (q: Cell<Json>)
    requires Settled(p)
    ensures Settled(q)
    ensures !Flag(q)
    ensures q.key == p.key && q.storage.None? == p.storage.None?
    ensures q.storage.Some? ==> q.storage.value.Keys == p.storage.value.Keys
    ensures OthersUnchanged(p.storage, q.storage, p.key)
  {
    var c := SetValue(p, Replace(JBool(false)), Serialize);
    SettledIsQuiescent(c);
    Hydrate(c)
  }

  /** Logging out twice is logging out once. */
  lemma LogoutIdempotent(p: Cell<Json>)
    requires Settled(p)
    ensures Logout(Logout(p)) == Logout(p)
  {
    var q := Logout(p);
    assert SetValue(q, Replace(JBool(false)), Serialize) == q;
    SettledIsQuiescent(q);
  }

  /** A login outlives a reload: remounting over the same storage restores the verdict. */
  lemma LoginSurvivesReload(p: Cell<Json>, username: string, password: string,
                            validate: (string, string) -> bool, parse: string -> Option<Json>)
    requires Settled(p) && p.storage.Some?
    requires JsonParse(parse)
    ensures var q := Login(p, username, password, validate).provider;
            Flag(MountProvider(q.storage, p.key, parse)) == validate(username, password)
  {
  }

  /** A logout outlives a reload. */
  lemma LogoutSurvivesReload(p: Cell<Json>, parse: string -> Option<Json>)
    requires Settled(p)
    requires JsonParse(parse)
    ensures !Flag(MountProvider(Logout(p).storage, p.key, parse))
  {
  }

  /** The stored item a non-boolean JSON value leaves behind signs nobody in. */
  lemma NonBooleanItemSignsOut(store: Store, key: string, parse: string -> Option<Json>)
    requires JsonParse(parse)
    requires key in store && store[key] != ""
    requires parse(store[key]).Some? && parse(store[key]).value.JOther?
    ensures !Flag(MountProvider(Some(store), key, parse))
    ensures MountProvider(Some(store), key, parse).storage.value[key] == "false"
  {
  }

  const OutsideProvider: string := "useAuth must be used within an AuthProvider."

  datatype UseAuthResult = Provided(provider: Cell<Json>) | Thrown(message: string)

  /** `useAuth()`: the provider's state, or an error when rendered outside any provider. */
  function UseAuth(context: Option<Cell<Json>>): (r: UseAuthResult)
    ensures r.Thrown? <==> context.None?
    ensures r.Thrown? ==> r.message == OutsideProvider
    ensures r.Provided? ==> r.provider == context.value
  {
    match context
    case None => Thrown(OutsideProvider)
    case Some(p) => Provided(p)
  }
}

=== FILE: event_card.dfy ===
/**
 * The per-event derivations of the event card: the locked flag, the lead
 * speaker's initials, the resolution of related-event ids, the link to the
 * event page, the category label and the texts shown in place of missing data.
 */
module EventCard {
  import opened Seqs
  import opened Text
  import opened Events

  /** At most this many related events are offered in the details view. */
  const RelatedLimit: nat := 6

  const NoDescription: string := "No description provided."

  /** A private event seen by an unauthenticated visitor. */
  predicate IsLocked(e: Event, isAuthenticated: bool) {
    e.permission == Private && !isAuthenticated
  }

  /**
   * `leadSpeaker?.name.split(" ").filter(Boolean).slice(0, 2).map(p => p[0]?.toUpperCase()).join("") ?? "?"`:
   * "?" only when there is no speaker at all.
   */
  function LeadSpeakerInitials(e: Event): (r: string)
    ensures e.speakers == [] ==> r == "?"
    ensures e.speakers != [] ==> r == UpperAll(Take(WordStarts(e.speakers[0].name), 2))
    ensures e.speakers != [] ==> |r| <= 2
  {
    if e.speakers == [] then "?"
    else
      var name := e.speakers[0].name;
      var words := Take(Words(name), 2);
      WordsFirstChars(name);
      TakeFirstChars(Words(name), 2);
      UpperAll(FirstChars(words))
  }

  lemma {:induction false} TakeFirstChars(words: seq<string>, n: nat)
    requires forall k :: 0 <= k < |words| ==> words[k] != []
    ensures FirstChars(Take(words, n)) == Take(FirstChars(words), n)
  {
    var t := Take(words, n);
    var lhs := FirstChars(t);
    var rhs := Take(FirstChars(words), n);
    FirstCharsAt(t);
    FirstCharsAt(words);
    assert |lhs| == |rhs|;
    forall k | 0 <= k < |lhs| ensures lhs[k] == rhs[k] {
    }
  }

  lemma {:induction false} FirstCharsAt(words: seq<string>)
    requires forall k :: 0 <= k < |words| ==> words[k] != []
    ensures forall k :: 0 <= k < |words| ==> FirstChars(words)[k] == words[k][0]
  {
    if words != [] {
      FirstCharsAt(words[1..]);
    }
  }

  /** A lead speaker whose name is empty or only spaces yields no initials at all, not "?". */
  lemma BlankLeadSpeakerHasNoInitials(e: Event)
    requires e.speakers != []
    requires forall k :: 0 <= k < |e.speakers[0].name| ==> e.speakers[0].name[k] == ' '
    ensures LeadSpeakerInitials(e) == ""
  {
    NoWordStartsInSpaces(e.speakers[0].name, true);
  }

  lemma {:induction false} NoWordStartsInSpaces(s: string, afterSpace: bool)
    requires forall k :: 0 <= k < |s| ==> s[k] == ' '
    ensures WordStartsFrom(s, afterSpace) == []
  {
    if s != [] {
      NoWordStartsInSpaces(s[1..], true);
    }
  }

  /** The first event in `all` carrying id `id`. */
  predicate IsFirstWithId(all: seq<Event>, x: Event, id: int) {
    && x.id == id
    && exists i :: 0 <= i < |all| && all[i] == x && forall j :: 0 <= j < i ==> all[j].id != id
  }

  predicate HasId(all: seq<Event>, id: int) {
    exists i :: 0 <= i < |all| && all[i].id == id
  }

  /** `all.find(c => c.id === id)` */
  function FindById(all: seq<Event>, id: int): (r: Option<Event>)
    ensures r.None? <==> !HasId(all, id)
    ensures r.Some? ==> IsFirstWithId(all, r.value, id)
  {
    if all == [] then None
    else if all[0].id == id then
      assert IsFirstWithId(all, all[0], id);
      Some(all[0])
    else
      var r := FindById(all[1..], id);
      assert HasId(all[1..], id) <==> HasId(all, id) by {
        if HasId(all, id) {
          var i :| 0 <= i < |all| && all[i].id == id;
          assert all[1..][i - 1].id == id;
        }
      }
      if r.Some? then
        var i :| 0 <= i < |all[1..]| && all[1..][i] == r.value && r.value.id == id
                 && forall j :: 0 <= j < i ==> all[1..][j].id != id;
        assert all[i + 1] == r.value;
        assert forall j :: 1 <= j < i + 1 ==> all[j].id == all[1..][j - 1].id;
        r
      else r
  }

  function KnownIn(all: seq<Event>): int -> bool {
    id => HasId(all, id)
  }

  /** The ids of a list of events, in order. */
  function Ids(events: seq<Event>): (ids: seq<int>)
    ensures |ids| == |events|
    ensures forall k :: 0 <= k < |events| ==> ids[k] == events[k].id
  {
    if events == [] then [] else [events[0].id] + Ids(events[1..])
  }

  /**
   * `ids.map(id => all.find(...)).filter(Boolean)`: one event per id that
   * resolves, in the order of `ids`; ids with no match are dropped.
   */
  function Resolve(ids: seq<int>, all: seq<Event>): (r: seq<Event>)
    ensures |r| <= |ids|
    ensures Ids(r) == Filter(ids, KnownIn(all))
    ensures forall k :: 0 <= k < |r| ==> IsFirstWithId(all, r[k], r[k].id)
  {
    if ids == [] then []
    else
      var rest := Resolve(ids[1..], all);
      var found := FindById(all, ids[0]);
      var r := if found.Some? then [found.value] + rest else rest;
      ResolveStep(ids, all, rest, found, r);
      r
  }

  /** One step of `Resolve`: the first id either resolves and leads the result, or is dropped. */
  lemma ResolveStep(ids: seq<int>, all: seq<Event>, rest: seq<Event>, found: Option<Event>, r: seq<Event>)
    requires ids != []
    requires Ids(rest) == Filter(ids[1..], KnownIn(all))
    requires forall k :: 0 <= k < |rest| ==> IsFirstWithId(all, rest[k], rest[k].id)
    requires found == FindById(all, ids[0])
    requires r == if found.Some? then [found.value] + rest else rest
    ensures Ids(r) == Filter(ids, KnownIn(all))
    ensures forall k :: 0 <= k < |r| ==> IsFirstWithId(all, r[k], r[k].id)
  {
    ResolveStepIds(ids, all, rest, found, r);
    if found.Some? {
      forall k | 0 <= k < |r| ensures IsFirstWithId(all, r[k], r[k].id) {
        if k > 0 {
          assert r[k] == rest[k - 1];
        }
      }
    }
  }

  /** The id half of `ResolveStep`. */
  lemma ResolveStepIds(ids: seq<int>, all: seq<Event>, rest: seq<Event>, found: Option<Event>, r: seq<Event>)
    requires ids != []
    requires Ids(rest) == Filter(ids[1..], KnownIn(all))
    requires found == FindById(all, ids[0])
    requires r == if found.Some? then [found.value] + rest else rest
    ensures Ids(r) == Filter(ids, KnownIn(all))
  {
    var known := KnownIn(all);
    assert known(ids[0]) <==> found.Some?;
    assert Filter(ids, known) == if known(ids[0]) then [ids[0]] + Filter(ids[1..], known) else Filter(ids[1..], known);
    if found.Some? {
      assert found.value.id == ids[0];
      assert r[1..] == rest;
      assert Ids(r) == [ids[0]] + Ids(rest);
    }
  }

  /** The related events of a card, resolved against the events the page passes down. */
  function RelatedEvents(e: Event, all: seq<Event>): (r: seq<Event>)
    ensures |r| <= |e.relatedEvents|
    ensures forall x :: x in r ==> x in all && x.id in e.relatedEvents
    ensures Ids(r) == Filter(e.relatedEvents, KnownIn(all))
    ensures forall k :: 0 <= k < |r| ==> IsFirstWithId(all, r[k], r[k].id)
  {
    var r := Resolve(e.relatedEvents, all);
    var known := Filter(e.relatedEvents, KnownIn(all));
    forall x | x in r ensures x in all && x.id in e.relatedEvents {
      var k :| 0 <= k < |r| && r[k] == x;
      assert IsFirstWithId(all, r[k], r[k].id);
      var i :| 0 <= i < |all| && all[i] == x;
      assert Ids(r)[k] == x.id;
      assert known[k] in known;
    }
    r
  }

  /** `relatedEvents.slice(0, 6)`: the buttons of the details view. */
  function ShownRelated(e: Event, all: seq<Event>): (r: seq<Event>)
    ensures |r| <= RelatedLimit
    ensures |r| <= |RelatedEvents(e, all)|
    ensures r == RelatedEvents(e, all)[..|r|]
    ensures |RelatedEvents(e, all)| <= RelatedLimit ==> r == RelatedEvents(e, all)
  {
    Take(RelatedEvents(e, all), RelatedLimit)
  }

  /** `event.permission === "private" ? event.private_url : event.public_url` */
  function EventUrl(e: Event): Option<string> {
    if e.permission == Private then e.privateUrl else e.publicUrl
  }

  /** What the details view shows for the event page. */
  datatype LinkView = NoLink | LockedLink | OpenLink(url: string)

  /** `eventUrl ? (isLocked ? "Event page locked" : <a href={eventUrl}>) : null` */
  function Link(e: Event, isAuthenticated: bool): (v: LinkView)
    ensures v == NoLink <==> !Truthy(EventUrl(e))
    ensures v == LockedLink <==> Truthy(EventUrl(e)) && e.permission == Private && !isAuthenticated
    ensures v.OpenLink? ==> (e.permission == Public || isAuthenticated) && v.url != ""
    ensures v.OpenLink? && e.permission == Private ==> Some(v.url) == e.privateUrl
    ensures v.OpenLink? && e.permission == Public ==> Some(v.url) == e.publicUrl
  {
    var url := EventUrl(e);
    if !Truthy(url) then NoLink
    else if IsLocked(e, isAuthenticated) then LockedLink
    else OpenLink(url.value)
  }

  /** An unauthenticated visitor is never handed a private URL. */
  lemma SignedOutNeverSeesPrivateUrl(e: Event)
    ensures Link(e, false).OpenLink? ==> e.permission == Public && Some(Link(e, false).url) == e.publicUrl
  {
  }

  /** `event.event_type.replace("_", " ")` */
  function TypeLabel(e: Event): (text: string)
    ensures |text| == |e.eventType|
    ensures forall k :: 0 <= k < |text| ==>
              text[k] == if e.eventType[k] == '_' && '_' !in e.eventType[..k] then ' ' else e.eventType[k]
  {
    ReplaceFirst(e.eventType, '_', ' ')
  }

  /** Only the first underscore becomes a space; later ones stay. */
  lemma TypeLabelReplacesFirstUnderscore(e: Event, before: string, after: string)
    requires e.eventType == before + "_" + after
    requires '_' !in before
    ensures TypeLabel(e) == before + " " + after
  {
    var s := e.eventType;
    var i := IndexOf(s, '_');
    assert s[|before|] == '_';
    assert forall k :: 0 <= k < |before| ==> s[k] == before[k];
    assert forall k :: |before| < k <= |s| ==> s[..k][|before|] == '_';
    assert i == |before|;
    assert s[..i] == before && s[i + 1..] == after;
  }

  /** `event.description ?? "No description provided."`: an empty description stays empty. */
  function DescriptionShown(e: Event): (text: string)
    ensures e.description.None? ==> text == NoDescription
    ensures e.description.Some? ==> text == e.description.value
  {
    e.description.GetOr(NoDescription)
  }

  /** The image area: the lead speaker's picture (initials as its fallback) or the initials alone. */
  datatype Portrait = Photo(src: string, fallback: string) | InitialsOnly(initials: string)

  function PortraitOf(e: Event): (p: Portrait)
    ensures p.Photo? <==> e.speakers != [] && Truthy(e.speakers[0].profilePic)
    ensures p.Photo? ==> p.fallback == LeadSpeakerInitials(e)
    ensures p.InitialsOnly? ==> p.initials == LeadSpeakerInitials(e)
  {
    if e.speakers != [] && Truthy(e.speakers[0].profilePic) then
      Photo(e.speakers[0].profilePic.value, LeadSpeakerInitials(e))
    else
      InitialsOnly(LeadSpeakerInitials(e))
  }

  /** Everything the card and its details view derive from one event. */
  datatype Card = Card(
    event: Event,
    locked: bool,
    typeLabel: string,
    portrait: Portrait,
    description: string,
    link: LinkView,
    related: seq<Event>)

  function CardOf(e: Event, all: seq<Event>, isAuthenticated: bool): (c: Card)
    ensures c.event == e
    ensures c.locked <==> e.permission == Private && !isAuthenticated
    ensures |c.related| <= RelatedLimit
    ensures forall x :: x in c.related ==> x in all && x.id in e.relatedEvents
    ensures c.link.OpenLink? ==> !c.locked
    ensures c.typeLabel == TypeLabel(e) && c.portrait == PortraitOf(e)
    ensures c.description == DescriptionShown(e) && c.link == Link(e, isAuthenticated)
    ensures c.related == ShownRelated(e, all)
  {
    Card(e, IsLocked(e, isAuthenticated), TypeLabel(e), PortraitOf(e), DescriptionShown(e),
         Link(e, isAuthenticated), ShownRelated(e, all))
  }
}

=== FILE: event_filters.dfy ===
/**
 * The `useEventFilters` hook: the reusable filtering pipeline. Each control
 * (search text, category, whether private events are shown) is either
 * supplied by the caller, in which case the caller's value wins, or held in
 * the hook's own state, initialised from the caller's options or a default.
 * The list is gated by permission, optionally narrowed to public events,
 * searched, filtered by category and sorted by start time.
 */
module EventFilters {
  import opened Seqs
  import opened Text
  import opened Events
  import opened Filters

  /** The caller's options: an absent field leaves that control to the hook. */
  datatype FilterOptions = FilterOptions(searchQuery: Option<string>, eventTypeFilter: Option<string>,
                                         showPrivate: Option<bool>)

  /** One value per control. */
  datatype FilterState = FilterState(searchQuery: string, eventTypeFilter: string, showPrivate: bool)

  const NoOptions: FilterOptions := FilterOptions(None, None, None)

  /** The defaults of the hook's own state: no search, every category, private events shown. */
  const Defaults: FilterState := FilterState("", AllTypes, true)

  /** `useState(options?.x ?? default)`: the hook's state as first rendered. */
  function InitialState(options: FilterOptions): (s: FilterState)
    ensures options.searchQuery.Some? ==> s.searchQuery == options.searchQuery.value
    ensures options.eventTypeFilter.Some? ==> s.eventTypeFilter == options.eventTypeFilter.value
    ensures options.showPrivate.Some? ==> s.showPrivate == options.showPrivate.value
    ensures options.searchQuery.None? ==> s.searchQuery == ""
    ensures options.eventTypeFilter.None? ==> s.eventTypeFilter == AllTypes
    ensures options.showPrivate.None? ==> s.showPrivate
    ensures options == NoOptions ==> s == Defaults
  {
    FilterState(options.searchQuery.GetOr(Defaults.searchQuery),
                options.eventTypeFilter.GetOr(Defaults.eventTypeFilter),
                options.showPrivate.GetOr(Defaults.showPrivate))
  }

  /** `options?.x ?? internalX`: a supplied option overrides the hook's own state. */
  function Active(options: FilterOptions, internal: FilterState): (s: FilterState)
    ensures options.searchQuery.Some? ==> s.searchQuery == options.searchQuery.value
    ensures options.searchQuery.None? ==> s.searchQuery == internal.searchQuery
    ensures options.eventTypeFilter.Some? ==> s.eventTypeFilter == options.eventTypeFilter.value
    ensures options.eventTypeFilter.None? ==> s.eventTypeFilter == internal.eventTypeFilter
    ensures options.showPrivate.Some? ==> s.showPrivate == options.showPrivate.value
    ensures options.showPrivate.None? ==> s.showPrivate == internal.showPrivate
  {
    FilterState(options.searchQuery.GetOr(internal.searchQuery),
                options.eventTypeFilter.GetOr(internal.eventTypeFilter),
                options.showPrivate.GetOr(internal.showPrivate))
  }

  /** Whatever the hook's state, the active controls of a fresh hook are its initial state. */
  lemma ActiveOfInitialIsInitial(options: FilterOptions)
    ensures Active(options, InitialState(options)) == InitialState(options)
  {
  }

  /** The setters of a control the caller supplies have no visible effect. */
  lemma ControlledSettersAreIgnored(options: FilterOptions, internal: FilterState, next: FilterState)
    requires options.searchQuery.Some? && options.eventTypeFilter.Some? && options.showPrivate.Some?
    ensures Active(options, next) == Active(options, internal)
  {
  }

  /** `if (isAuthenticated && !activeShowPrivate)`: the public-only narrowing of a signed-in viewer. */
  function HidePrivate(events: seq<Event>, isAuthenticated: bool, showPrivate: bool): (r: seq<Event>)
    ensures isAuthenticated && !showPrivate ==> KeepsExactly(r, events, IsPublic)
    ensures !(isAuthenticated && !showPrivate) ==> r == events
  {
    if isAuthenticated && !showPrivate then Filter(events, IsPublic) else events
  }

  /** The four filtering stages of the memoised `filteredEvents`, before the sort. */
  function Stages(events: seq<Event>, isAuthenticated: bool, active: FilterState): seq<Event> {
    var permitted := FilterByPermission(events, isAuthenticated);
    var narrowed := HidePrivate(permitted, isAuthenticated, active.showPrivate);
    var searched := FilterBySearch(narrowed, active.searchQuery);
    FilterByEventType(searched, active.eventTypeFilter)
  }

  /** The pipeline of the memoised `filteredEvents`. */
  function Pipeline(events: seq<Event>, isAuthenticated: bool, active: FilterState): (r: seq<Event>)
    ensures forall i, j :: 0 <= i < j < |r| ==> r[i].startTime <= r[j].startTime
  {
    SortByStartTime(Stages(events, isAuthenticated, active))
  }

  /** Every test the pipeline applies to a single event. */
  predicate Admitted(isAuthenticated: bool, active: FilterState, e: Event) {
    && (isAuthenticated || e.permission == Public)
    && (!(isAuthenticated && !active.showPrivate) || e.permission == Public)
    && (IsBlank(active.searchQuery) || MatchesQuery(e, NormalizeQuery(active.searchQuery)))
    && (active.eventTypeFilter == AllTypes || e.eventType == active.eventTypeFilter)
  }

  function Admits(isAuthenticated: bool, active: FilterState): Event -> bool {
    (e: Event) => Admitted(isAuthenticated, active, e)
  }

  /** The hook's result: the list and the active value of each control. */
  datatype FilterResult = FilterResult(filteredEvents: seq<Event>, searchQuery: string,
                                       eventTypeFilter: string, showPrivate: bool)

  /**
   * `useEventFilters(events, options)` rendered with the hook's own state
   * `internal`: the active controls and the filtered, start-ordered list.
   */
  function UseEventFilters(events: seq<Event>, isAuthenticated: bool, options: FilterOptions,
                           internal: FilterState): (r: FilterResult)
    ensures r.searchQuery == Active(options, internal).searchQuery
    ensures r.eventTypeFilter == Active(options, internal).eventTypeFilter
    ensures r.showPrivate == Active(options, internal).showPrivate
    ensures r.filteredEvents == SortByStartTime(Filter(events, Admits(isAuthenticated, Active(options, internal))))
    ensures forall e :: e in r.filteredEvents <==>
              e in events && Admitted(isAuthenticated, Active(options, internal), e)
  {
    var active := Active(options, internal);
    PipelineIsOneFilter(events, isAuthenticated, active);
    var r := Pipeline(events, isAuthenticated, active);
    assert forall e :: e in r <==> e in Filter(events, Admits(isAuthenticated, active)) by {
      forall e ensures e in r <==> e in Filter(events, Admits(isAuthenticated, active)) {
        assert e in r <==> e in multiset(r);
      }
    }
    FilterResult(r, active.searchQuery, active.eventTypeFilter, active.showPrivate)
  }

  /** The test of each stage; a stage that passes its input through has a test everything passes. */
  function PermissionGate(isAuthenticated: bool): Event -> bool {
    (e: Event) => isAuthenticated || e.permission == Public
  }

  function PrivateGate(isAuthenticated: bool, showPrivate: bool): Event -> bool {
    (e: Event) => !(isAuthenticated && !showPrivate) || e.permission == Public
  }

  function SearchGate(query: string): Event -> bool {
    (e: Event) => IsBlank(query) || MatchesQuery(e, NormalizeQuery(query))
  }

  function TypeGate(eventType: string): Event -> bool {
    (e: Event) => eventType == AllTypes || e.eventType == eventType
  }

  lemma PermissionStageIsFilter(s: seq<Event>, isAuthenticated: bool)
    ensures FilterByPermission(s, isAuthenticated) == Filter(s, PermissionGate(isAuthenticated))
  {
    if isAuthenticated {
      FilterAll(s, PermissionGate(isAuthenticated));
    } else {
      FilterCongruent(s, IsPublic, PermissionGate(isAuthenticated));
    }
  }

  lemma PrivateStageIsFilter(s: seq<Event>, isAuthenticated: bool, showPrivate: bool)
    ensures HidePrivate(s, isAuthenticated, showPrivate) == Filter(s, PrivateGate(isAuthenticated, showPrivate))
  {
    if isAuthenticated && !showPrivate {
      FilterCongruent(s, IsPublic, PrivateGate(isAuthenticated, showPrivate));
    } else {
      FilterAll(s, PrivateGate(isAuthenticated, showPrivate));
    }
  }

  lemma SearchStageIsFilter(s: seq<Event>, query: string)
    ensures FilterBySearch(s, query) == Filter(s, SearchGate(query))
  {
    if IsBlank(query) {
      FilterAll(s, SearchGate(query));
    } else {
      FilterCongruent(s, Matching(NormalizeQuery(query)), SearchGate(query));
    }
  }

  lemma TypeStageIsFilter(s: seq<Event>, eventType: string)
    ensures FilterByEventType(s, eventType) == Filter(s, TypeGate(eventType))
  {
    if eventType == AllTypes {
      FilterAll(s, TypeGate(eventType));
    } else {
      FilterCongruent(s, OfType(eventType), TypeGate(eventType));
    }
  }

  /** The four stages together are a single filter by `Admits`, followed by the sort. */
  lemma PipelineIsOneFilter(events: seq<Event>, isAuthenticated: bool, active: FilterState)
    ensures Pipeline(events, isAuthenticated, active)
         == SortByStartTime(Filter(events, Admits(isAuthenticated, active)))
  {
    StagesAreOneFilter(events, isAuthenticated, active);
  }

  lemma StagesAreOneFilter(events: seq<Event>, isAuthenticated: bool, active: FilterState)
    ensures Stages(events, isAuthenticated, active) == Filter(events, Admits(isAuthenticated, active))
  {
    StagesAreFourFilters(events, isAuthenticated, active);
    FourGatesAreAdmits(events, isAuthenticated, active);
  }

  lemma StagesAreFourFilters(events: seq<Event>, isAuthenticated: bool, active: FilterState)
    ensures Stages(events, isAuthenticated, active)
         == Filter(Filter(Filter(Filter(events, PermissionGate(isAuthenticated)),
                                 PrivateGate(isAuthenticated, active.showPrivate)),
                          SearchGate(active.searchQuery)),
                   TypeGate(active.eventTypeFilter))
  {
    var permitted := FilterByPermission(events, isAuthenticated);
    var narrowed := HidePrivate(permitted, isAuthenticated, active.showPrivate);
    var searched := FilterBySearch(narrowed, active.searchQuery);
    PermissionStageIsFilter(events, isAuthenticated);
    PrivateStageIsFilter(permitted, isAuthenticated, active.showPrivate);
    SearchStageIsFilter(narrowed, active.searchQuery);
    TypeStageIsFilter(searched, active.eventTypeFilter);
  }

  lemma FourGatesAreAdmits(events: seq<Event>, isAuthenticated: bool, active: FilterState)
    ensures Filter(Filter(Filter(Filter(events, PermissionGate(isAuthenticated)),
                                 PrivateGate(isAuthenticated, active.showPrivate)),
                          SearchGate(active.searchQuery)),
                   TypeGate(active.eventTypeFilter))
         == Filter(events, Admits(isAuthenticated, active))
  {
    var a := PermissionGate(isAuthenticated);
    var b := PrivateGate(isAuthenticated, active.showPrivate);
    var c := SearchGate(active.searchQuery);
    var d := TypeGate(active.eventTypeFilter);
    FilterChain4(events, a, b, c, d, Admits(isAuthenticated, active));
  }

  /** With the defaults, a signed-in viewer gets every event, ordered by start time. */
  lemma DefaultsShowEverything(events: seq<Event>)
    ensures UseEventFilters(events, true, NoOptions, InitialState(NoOptions)).filteredEvents
         == SortByStartTime(events)
  {
    FilterAll(events, Admits(true, Defaults));
  }

  /** A signed-out viewer sees the same list whether or not private events are "shown". */
  lemma ShowPrivateIrrelevantSignedOut(events: seq<Event>, active: FilterState)
    ensures Pipeline(events, false, active.(showPrivate := true))
         == Pipeline(events, false, active.(showPrivate := false))
  {
  }

  /** Hiding private events from a signed-in viewer yields what a signed-out viewer sees. */
  lemma HidingPrivateMatchesSignedOut(events: seq<Event>, active: FilterState)
    requires !active.showPrivate
    ensures Pipeline(events, true, active) == Pipeline(events, false, active)
  {
    PipelineIsOneFilter(events, true, active);
    PipelineIsOneFilter(events, false, active);
    FilterCongruent(events, Admits(true, active), Admits(false, active));
  }
}

=== FILE: event_list.dfy ===
/**
 * The feed component: which of its four views it shows, and what the list
 * view contains (one card per filtered event, the result badge and the
 * "Next Up" sidebar).
 */
module EventList {
  import opened Seqs
  import opened Text
  import opened Events
  import opened EventCard

  /** The sidebar lists at most this many events. */
  const NextUpLimit: nat := 8

  datatype View =
    | LoadingView
    | ErrorView(message: string)
    | EmptyView
    | ListView(cards: seq<Card>, resultCount: nat, nextUp: seq<Event>)

  /** One card per event, in order, each resolving related events against `all`. */
  function Cards(events: seq<Event>, all: seq<Event>, isAuthenticated: bool): (cards: seq<Card>)
    ensures |cards| == |events|
    ensures forall k :: 0 <= k < |events| ==> cards[k] == CardOf(events[k], all, isAuthenticated)
  {
    if events == [] then []
    else [CardOf(events[0], all, isAuthenticated)] + Cards(events[1..], all, isAuthenticated)
  }

  /**
   * `EventList`: loading wins over everything, then a truthy error, then an
   * empty result; otherwise the list.
   */
  function SelectView(all: seq<Event>, filtered: seq<Event>, loading: bool, error: Option<string>,
                      isAuthenticated: bool): (v: View)
    ensures loading ==> v == LoadingView
    ensures !loading && Truthy(error) ==> v == ErrorView(error.value)
    ensures !loading && !Truthy(error) && filtered == [] ==> v == EmptyView
    ensures v.ListView? <==> !loading && !Truthy(error) && filtered != []
    ensures v.ListView? ==> |v.cards| == |filtered| == v.resultCount
    ensures v.ListView? ==> forall k :: 0 <= k < |filtered| ==> v.cards[k] == CardOf(filtered[k], all, isAuthenticated)
    ensures v.ListView? ==> |v.nextUp| == (if |filtered| < NextUpLimit then |filtered| else NextUpLimit)
    ensures v.ListView? ==> v.nextUp == filtered[..|v.nextUp|]
  {
    if loading then LoadingView
    else if Truthy(error) then ErrorView(error.value)
    else if |filtered| == 0 then EmptyView
    else ListView(Cards(filtered, all, isAuthenticated), |filtered|, Take(filtered, NextUpLimit))
  }

  /** An empty error string does not count as an error: the events are shown. */
  lemma EmptyErrorIsNoError(all: seq<Event>, filtered: seq<Event>, isAuthenticated: bool)
    requires filtered != []
    ensures SelectView(all, filtered, false, Some(""), isAuthenticated).ListView?
  {
  }
}

=== FILE: event_store.dfy ===
/**
 * The fetch-status record of the `useEvents` hook: the loaded events, the
 * in-flight flag and the last error message, and the transitions `refetch`
 * drives it through. The HTTP request itself is abstracted to its outcome.
 */
module EventStore {
  import opened Seqs
  import opened Text
  import opened Events

  datatype FetchState = FetchState(events: seq<Event>, loading: bool, error: Option<string>)

  /** What `fetchEvents()` threw: an `Error` carrying a message, or any other value. */
  datatype Thrown = ErrorObject(message: string) | NonError

  /** How one call of `fetchEvents()` ended. */
  datatype FetchOutcome = Fetched(data: seq<Event>) | Threw(thrown: Thrown)

  const FallbackMessage: string := "Failed to fetch events."

  /** The state before the first fetch has resolved: nothing loaded, loading, no error. */
  const Initial: FetchState := FetchState([], true, None)

  /** `err instanceof Error ? err.message : "Failed to fetch events."` */
  function ErrorMessage(thrown: Thrown): (m: string)
    ensures thrown.NonError? ==> m == FallbackMessage
    ensures thrown.ErrorObject? ==> m == thrown.message
  {
    match thrown
    case ErrorObject(message) => message
    case NonError => FallbackMessage
  }

  /** The synchronous start of `refetch`: loading, error cleared, events kept. */
  function BeginRefetch(s: FetchState): (r: FetchState)
    ensures r.loading && r.error == None
    ensures r.events == s.events
  {
    s.(loading := true, error := None)
  }

  /**
   * The asynchronous end of `refetch` exactly as written: success replaces
   * the events but leaves `error` as it finds it, failure empties the events
   * and records the message, and `finally` clears `loading`.
   */
  function CompleteAsWritten(s: FetchState, outcome: FetchOutcome): (r: FetchState)
    ensures !r.loading
    ensures outcome.Fetched? ==> r.events == outcome.data && r.error == s.error
    ensures outcome.Threw? ==> r.events == [] && r.error == Some(ErrorMessage(outcome.thrown))
  {
    match outcome
    case Fetched(data) => s.(events := data, loading := false)
    case Threw(thrown) => s.(events := [], error := Some(ErrorMessage(thrown)), loading := false)
  }

  /**
   * The end of `refetch` with success also clearing the error, so that the
   * completion that resolves last decides the whole state.
   */
  function Complete(s: FetchState, outcome: FetchOutcome): (r: FetchState)
    ensures !r.loading
    ensures r.error.Some? ==> r.events == []
    ensures outcome.Fetched? ==> r.events == outcome.data && r.error == None
    ensures outcome.Threw? ==> r.events == [] && r.error == Some(ErrorMessage(outcome.thrown))
  {
    match outcome
    case Fetched(data) => FetchState(data, false, None)
    case Threw(thrown) => FetchState([], false, Some(ErrorMessage(thrown)))
  }

  /** One whole `refetch` with no other call overlapping it. */
  function Refetch(s: FetchState, outcome: FetchOutcome): (r: FetchState)
    ensures !r.loading
    ensures r.error.Some? ==> r.events == []
    ensures outcome.Fetched? ==> r == FetchState(outcome.data, false, None)
    ensures outcome.Threw? ==> r == FetchState([], false, Some(ErrorMessage(outcome.thrown)))
  {
    Complete(BeginRefetch(s), outcome)
  }

  /** Without overlapping calls the corrected completion and the written one agree. */
  lemma RefetchMatchesSource(s: FetchState, outcome: FetchOutcome)
    ensures Refetch(s, outcome) == CompleteAsWritten(BeginRefetch(s), outcome)
  {
  }

  /**
   * Two overlapping `refetch` calls where the first fails and the second
   * succeeds: as written, the final state holds the new data together with
   * the stale error, so the list shows the error view although data arrived.
   */
  lemma OverlappingRefetchKeepsStaleError(e: Event)
    ensures var first := BeginRefetch(Initial);
            var second := BeginRefetch(first);
            var failed := CompleteAsWritten(second, Threw(ErrorObject("timeout")));
            var last := CompleteAsWritten(failed, Fetched([e]));
            && Truthy(last.error) && last.events == [e] && !last.loading
  {
  }

  /** With the corrected completion the same interleaving ends in the state the last response describes. */
  lemma OverlappingRefetchCorrected(e: Event)
    ensures var first := BeginRefetch(Initial);
            var second := BeginRefetch(first);
            var failed := Complete(second, Threw(ErrorObject("timeout")));
            var last := Complete(failed, Fetched([e]));
            last == FetchState([e], false, None)
  {
  }
}

=== FILE: events.dfy ===
/**
 * The event record as the pipeline uses it. Field names follow the API's
 * JSON (`start_time` becomes `startTime`, and so on); timestamps are
 * integers in whatever unit the source delivers.
 */
module Events {
  import opened Seqs

  /** Visibility tier: private events are hidden from unauthenticated viewers. */
  datatype Permission = Public | Private

  datatype Speaker = Speaker(name: string, profilePic: Option<string>)

  /**
   * `eventType` is a string rather than a closed enumeration: an unknown
   * category passes only the "all" filter.
   */
  datatype Event = Event(
    id: int,
    name: string,
    description: Option<string>,
    startTime: int,
    endTime: int,
    eventType: string,
    permission: Permission,
    speakers: seq<Speaker>,
    relatedEvents: seq<int>,
    publicUrl: Option<string>,
    privateUrl: Option<string>)

  /** The three categories the category chips count. */
  const Workshop: string := "workshop"
  const TechTalk: string := "tech_talk"
  const Activity: string := "activity"

  predicate IsPublic(e: Event) {
    e.permission == Public
  }

  predicate IsPrivate(e: Event) {
    e.permission == Private
  }

  /** `e => e.event_type === type` */
  function OfType(eventType: string): Event -> bool {
    (e: Event) => e.eventType == eventType
  }
}

=== FILE: filters.dfy ===
/**
 * The four list functions of src/lib/filters.ts: the permission gate, the
 * category filter, the case-insensitive search and the start-time sort.
 * None of them mutates its input; the identity cases return the input itself.
 */
module Filters {
  import opened Seqs
  import opened Text
  import opened Sorting
  import opened Events

  /** The category selection that disables the category filter. */
  const AllTypes: string := "all"

  /** `filterByPermission`: everything when authenticated, otherwise exactly the public events. */
  function FilterByPermission(events: seq<Event>, isAuthenticated: bool): (r: seq<Event>)
    ensures isAuthenticated ==> r == events
    ensures !isAuthenticated ==> KeepsExactly(r, events, IsPublic)
    ensures !isAuthenticated ==> forall e :: e in r <==> e in events && e.permission == Public
  {
    if isAuthenticated then events else Filter(events, IsPublic)
  }

  /** `filterByEventType`: "all" keeps everything, any other value keeps the events of exactly that type. */
  function FilterByEventType(events: seq<Event>, eventType: string): (r: seq<Event>)
    ensures eventType == AllTypes ==> r == events
    ensures eventType != AllTypes ==> KeepsExactly(r, events, OfType(eventType))
    ensures eventType != AllTypes ==> forall e :: e in r <==> e in events && e.eventType == eventType
  {
    if eventType == AllTypes then events else Filter(events, OfType(eventType))
  }

  /** `query.trim().toLowerCase()` */
  function NormalizeQuery(query: string): (q: string)
    ensures q == [] <==> IsBlank(query)
  {
    Lower(Trim(query))
  }

  /** The lower-cased speaker names, in speaker order. */
  function LowerSpeakerNames(speakers: seq<Speaker>): (names: seq<string>)
    ensures |names| == |speakers|
    ensures forall k :: 0 <= k < |speakers| ==> names[k] == Lower(speakers[k].name)
  {
    if speakers == [] then [] else [Lower(speakers[0].name)] + LowerSpeakerNames(speakers[1..])
  }

  /** The three texts a query is matched against. */
  function NameText(e: Event): string { Lower(e.name) }
  function DescriptionText(e: Event): string { Lower(e.description.GetOr("")) }
  function SpeakerText(e: Event): string { Join(LowerSpeakerNames(e.speakers), " ") }

  /** The normalised query `q` is a substring of the name, the description or the joined speaker names. */
  predicate MatchesQuery(e: Event, q: string) {
    || Includes(NameText(e), q)
    || Includes(DescriptionText(e), q)
    || Includes(SpeakerText(e), q)
  }

  function Matching(q: string): Event -> bool {
    (e: Event) => MatchesQuery(e, q)
  }

  /**
   * `filterBySearch`: a blank query keeps everything; otherwise exactly the
   * events the normalised query matches are kept, in order.
   */
  function FilterBySearch(events: seq<Event>, query: string): (r: seq<Event>)
    ensures IsBlank(query) ==> r == events
    ensures !IsBlank(query) ==> KeepsExactly(r, events, Matching(NormalizeQuery(query)))
    ensures !IsBlank(query) ==> forall e :: e in r <==> e in events && MatchesQuery(e, NormalizeQuery(query))
  {
    var q := NormalizeQuery(query);
    if q == [] then events else Filter(events, Matching(q))
  }

  /** Only the normalised query matters: queries that differ in case or surrounding blanks filter alike. */
  lemma SearchDependsOnlyOnNormalizedQuery(events: seq<Event>, query1: string, query2: string)
    requires NormalizeQuery(query1) == NormalizeQuery(query2)
    ensures FilterBySearch(events, query1) == FilterBySearch(events, query2)
  {
  }

  /**
   * An event with one speaker whose name contains the normalised query is
   * kept, because that name is a piece of the joined speaker text.
   */
  lemma SpeakerNameMatchIsKept(events: seq<Event>, query: string, e: Event, k: nat)
    requires !IsBlank(query)
    requires e in events
    requires k < |e.speakers|
    requires Includes(Lower(e.speakers[k].name), NormalizeQuery(query))
    ensures e in FilterBySearch(events, query)
  {
    var names := LowerSpeakerNames(e.speakers);
    JoinContainsPart(names, " ", k);
    var at :| OccursAt(Join(names, " "), names[k], at);
    IncludesTransitive(Join(names, " "), names[k], NormalizeQuery(query), at);
  }

  /**
   * The converse fails: a query may match across the separator between two
   * speaker names without matching any single name.
   */
  lemma MatchAcrossSpeakerNames()
    ensures var e := Event(1, "x", None, 0, 0, Workshop, Public,
                           [Speaker("ab", None), Speaker("cd", None)], [], None, None);
            && FilterBySearch([e], "b c") == [e]
            && !Includes(Lower(e.speakers[0].name), "b c")
            && !Includes(Lower(e.speakers[1].name), "b c")
  {
    var e := Event(1, "x", None, 0, 0, Workshop, Public,
                   [Speaker("ab", None), Speaker("cd", None)], [], None, None);
    var q := "b c";
    QueryIsAlreadyNormal();
    JoinedSpeakerText(e);
    assert OccursAt("ab cd", q, 1);
    assert MatchesQuery(e, q);
    assert Filter([e], Matching(q)) == [e];
  }

  /** The query of `MatchAcrossSpeakerNames` is its own normal form. */
  lemma QueryIsAlreadyNormal()
    ensures NormalizeQuery("b c") == "b c"
    ensures !IsBlank("b c")
  {
    var q := "b c";
    assert LeadingBlanks(q) == 0;
    assert TrailingBlanksStart(q) == 3;
    assert Trim(q) == q;
    assert Lower(q) == q;
  }

  /** The speaker names of `MatchAcrossSpeakerNames` join to one text. */
  lemma JoinedSpeakerText(e: Event)
    requires e.speakers == [Speaker("ab", None), Speaker("cd", None)]
    ensures SpeakerText(e) == "ab cd"
  {
    assert Lower("ab") == "ab" && Lower("cd") == "cd";
    assert LowerSpeakerNames(e.speakers) == ["ab", "cd"];
    assert ["ab", "cd"][1..] == ["cd"];
    assert Join(["ab", "cd"], " ") == "ab" + " " + Join(["cd"], " ");
  }

  /** `(a, b) => a.start_time - b.start_time` is at most zero. */
  predicate StartsNoLater(a: Event, b: Event) {
    a.startTime <= b.startTime
  }

  lemma StartOrderIsTotalPreorder()
    ensures TotalPreorder(StartsNoLater)
  {
  }

  /**
   * `sortByStartTime`: a permutation of the input in non-decreasing start
   * time, events with equal start times keeping their input order.
   */
  function SortByStartTime(events: seq<Event>): (r: seq<Event>)
    ensures multiset(r) == multiset(events)
    ensures forall i, j :: 0 <= i < j < |r| ==> r[i].startTime <= r[j].startTime
    ensures Stable(r, events, StartsNoLater)
  {
    StartOrderIsTotalPreorder();
    SortStable(events, StartsNoLater);
    Sort(events, StartsNoLater)
  }

  /** Sorting by start time twice gives the same order as sorting once. */
  lemma SortByStartTimeIdempotent(events: seq<Event>)
    ensures SortByStartTime(SortByStartTime(events)) == SortByStartTime(events)
  {
    StartOrderIsTotalPreorder();
    SortIdempotent(events, StartsNoLater);
  }

  /** A list already in start-time order is returned as it is. */
  lemma SortByStartTimeOfSorted(events: seq<Event>)
    requires forall i, j :: 0 <= i < j < |events| ==> events[i].startTime <= events[j].startTime
    ensures SortByStartTime(events) == events
  {
    StartOrderIsTotalPreorder();
    SortSortedIsIdentity(events, StartsNoLater);
  }
}

=== FILE: local_storage.dfy ===
/**
 * The `useLocalStorage` hook: a state value mirrored under one key of the
 * browser's storage. The value is read from storage when the hook is first
 * rendered, written back by an effect whenever it changes, replaced or
 * updated by `setValue`, and reset by `remove`. Parsing and serialisation
 * (`JSON.parse`, `JSON.stringify`) enter as parameters; a parse that throws
 * is `None`. Effects run after the render that changed the value; React
 * compares values with `Object.is`, modelled by `==`.
 */
module LocalStorage {
  import opened Seqs

  /** `window.localStorage`: string keys to string items. */
  type Store = map<string, string>

  /**
   * The hook's state. `storage` is `None` when there is no `window` (the
   * server render), in which case the storage is never touched.
   */
  datatype Cell<T> = Cell(key: string, initial: T, value: T, storage: Option<Store>)

  /** `localStorage.getItem(key)`: `None` plays `null`. */
  function GetItem(store: Store, key: string): (item: Option<string>)
    ensures item.Some? <==> key in store
    ensures item.Some? ==> item.value == store[key]
  {
    if key in store then Some(store[key]) else None
  }

  /**
   * The `useState` initialiser: the parsed item, or the initial value when
   * there is no window, no item, an empty item or an item that fails to parse.
   */
  function ReadInitial<T>(storage: Option<Store>, key: string, initial: T, parse: string -> Option<T>): (v: T)
    ensures storage.None? ==> v == initial
    ensures storage.Some? && (key !in storage.value || storage.value[key] == "") ==> v == initial
    ensures storage.Some? && key in storage.value && storage.value[key] != "" ==>
              v == parse(storage.value[key]).GetOr(initial)
  {
    match storage
    case None => initial
    case Some(store) =>
      match GetItem(store, key)
      case None => initial
      case Some(item) =>
        if item == "" then initial
        else parse(item).GetOr(initial)
  }

  /** The persist effect: `localStorage.setItem(key, JSON.stringify(value))`, nothing else touched. */
  /**
   * The frame of every operation on one key: storage stays present or
   * absent, and every other key keeps both its presence and its item.
   */
  ghost predicate OthersUnchanged(before: Option<Store>, after: Option<Store>, key: string) {
    && (after.None? <==> before.None?)
    && (after.Some? ==> forall k :: k != key ==>
          && (k in after.value <==> k in before.value)
          && (k in before.value ==> after.value[k] == before.value[k]))
  }

  function Persist<T>(c: Cell<T>, serialize: T -> string): (d: Cell<T>)
    ensures d.key == c.key && d.initial == c.initial && d.value == c.value
    ensures d.storage.None? <==> c.storage.None?
    ensures d.storage.Some? ==> c.key in d.storage.value && d.storage.value[c.key] == serialize(c.value)
    ensures d.storage.Some? ==> d.storage.value.Keys == c.storage.value.Keys + {c.key}
    ensures d.storage.Some? ==> forall k :: k in c.storage.value && k != c.key ==>
              d.storage.value[k] == c.storage.value[k]
  {
    match c.storage
    case None => c
    case Some(store) => c.(storage := Some(store[c.key := serialize(c.value)]))
  }

  /** The first render and its effect, which always runs once on mount. */
  function Mount<T>(storage: Option<Store>, key: string, initial: T, parse: string -> Option<T>,
                    serialize: T -> string): (c: Cell<T>)
    ensures c.key == key && c.initial == initial
    ensures c.value == ReadInitial(storage, key, initial, parse)
    ensures Synced(c, serialize)
  {
    Persist(Cell(key, initial, ReadInitial(storage, key, initial, parse), storage), serialize)
  }

  /**
   * The render that follows a state change from `before` to `after`: the
   * persist effect runs only when the value changed.
   */
  function Commit<T(==)>(before: Cell<T>, after: Cell<T>, serialize: T -> string): (d: Cell<T>)
    ensures d.key == after.key && d.initial == after.initial && d.value == after.value
    ensures after.value == before.value ==> d == after
    ensures after.value != before.value ==> d == Persist(after, serialize)
    ensures OthersUnchanged(after.storage, d.storage, after.key)
  {
    if after.value != before.value then Persist(after, serialize) else after
  }

  /** `SetValue<T>`: a new value, or an updater applied to the previous value. */
  datatype Update<!T> = Replace(next: T) | Apply(f: T -> T)

  function Updated<T>(previous: T, u: Update<T>): T {
    match u
    case Replace(next) => next
    case Apply(f) => f(previous)
  }

  /** `setValue(u)` and the render it causes. */
  function SetValue<T(==)>(c: Cell<T>, u: Update<T>, serialize: T -> string): (d: Cell<T>)
    ensures d.key == c.key && d.initial == c.initial
    ensures d.value == Updated(c.value, u)
    ensures Synced(c, serialize) ==> Synced(d, serialize)
    ensures OthersUnchanged(c.storage, d.storage, c.key)
  {
    Commit(c, c.(value := Updated(c.value, u)), serialize)
  }

  /**
   * `remove()`: the item is deleted at once and the value reset to the
   * initial value; if that changed the value, the persist effect of the
   * following render writes the serialised initial value back.
   */
  function Remove<T(==)>(c: Cell<T>, serialize: T -> string): (d: Cell<T>)
    ensures d.key == c.key && d.initial == c.initial && d.value == c.initial
    ensures Synced(d, serialize)
    ensures d.storage.Some? && c.value == c.initial ==> c.key !in d.storage.value
    ensures d.storage.Some? && c.value != c.initial ==>
              c.key in d.storage.value && d.storage.value[c.key] == serialize(c.initial)
    ensures OthersUnchanged(c.storage, d.storage, c.key)
  {
    var removed := match c.storage
      case None => None
      case Some(store) => Some(store - {c.key});
    Commit(c, c.(value := c.initial, storage := removed), serialize)
  }

  /**
   * What the hook keeps true between renders: the storage holds the
   * serialised value under the key, or holds nothing there while the value
   * is the initial one.
   */
  ghost predicate Synced<T>(c: Cell<T>, serialize: T -> string) {
    match c.storage
    case None => true
    case Some(store) =>
      || (c.key in store && store[c.key] == serialize(c.value))
      || (c.key !in store && c.value == c.initial)
  }

  /**
   * A reload reads back the value a synced hook holds, provided parsing
   * inverts serialisation on it.
   */
  lemma ReloadRestoresValue<T>(c: Cell<T>, parse: string -> Option<T>, serialize: T -> string)
    requires Synced(c, serialize)
    requires c.storage.Some?
    requires serialize(c.value) != "" && parse(serialize(c.value)) == Some(c.value)
    ensures ReadInitial(c.storage, c.key, c.initial, parse) == c.value
  {
  }

  /** After `remove()`, a reload starts from the initial value whether or not the item was written back. */
  lemma ReloadAfterRemoveIsInitial<T>(c: Cell<T>, parse: string -> Option<T>, serialize: T -> string)
    requires parse(serialize(c.initial)) == Some(c.initial)
    ensures ReadInitial(Remove(c, serialize).storage, c.key, c.initial, parse) == c.initial
  {
  }

  /** Setting a value and reloading gives that value back. */
  lemma SetThenReload<T>(c: Cell<T>, v: T, parse: string -> Option<T>, serialize: T -> string)
    requires Synced(c, serialize)
    requires c.storage.Some?
    requires serialize(v) != "" && parse(serialize(v)) == Some(v)
    ensures ReadInitial(SetValue(c, Replace(v), serialize).storage, c.key, c.initial, parse) == v
  {
    ReloadRestoresValue(SetValue(c, Replace(v), serialize), parse, serialize);
  }
}

=== FILE: login_form.dfy ===
/**
 * The login form: two controlled fields, an error line, and a submit
 * handler that asks the provider to log in, shows an error on failure and
 * calls the caller's `onClose` on success. The caller modelled here is the
 * login page (`app/login/page.tsx`).
 */
module LoginForm {
  import opened Seqs
  import opened Text
  import opened LocalStorage
  import opened Auth

  const InvalidCredentials: string := "Invalid username or password."

  datatype Form = Form(username: string, password: string, error: Option<string>)

  /** The form as first rendered: empty fields, no error. */
  const EmptyForm: Form := Form("", "", None)

  /**
   * The outcome of a submit: the form, the provider, whether `onClose` was
   * called, and whether the handler threw because the caller supplied no
   * `onClose` to call.
   */
  datatype Submitted = Submitted(form: Form, provider: Cell<Json>, closed: bool, threw: bool)

  /**
   * `handleSubmit` for a caller that did (`hasOnClose`) or did not supply
   * `onClose`: a failed login keeps the dialog open with the error shown; a
   * successful one clears the error and then calls `onClose`, which throws a
   * `TypeError` when it is `undefined`. The state updates queued before the
   * throw still apply. The fields are never cleared.
   */
  function HandleSubmit(f: Form, p: Cell<Json>, validate: (string, string) -> bool, hasOnClose: bool): (r: Submitted)
    requires Settled(p)
    ensures r.form.username == f.username && r.form.password == f.password
    ensures Flag(r.provider) <==> validate(f.username, f.password)
    ensures r.closed <==> validate(f.username, f.password) && hasOnClose
    ensures r.threw <==> validate(f.username, f.password) && !hasOnClose
    ensures !validate(f.username, f.password) ==> r.form.error == Some(InvalidCredentials) && Truthy(r.form.error)
    ensures validate(f.username, f.password) ==> r.form.error == None
    ensures Settled(r.provider)
  {
    var result := Login(p, f.username, f.password, validate);
    if !result.success then
      Submitted(f.(error := Some(InvalidCredentials)), result.provider, false, false)
    else
      Submitted(f.(error := None), result.provider, hasOnClose, !hasOnClose)
  }

  /** `handleSubmit` with an `onClose` supplied, as the declared props require. */
  function Submit(f: Form, p: Cell<Json>, validate: (string, string) -> bool): (r: Submitted)
    requires Settled(p)
    ensures r.form.username == f.username && r.form.password == f.password
    ensures r.closed <==> validate(f.username, f.password)
    ensures r.closed <==> Flag(r.provider)
    ensures !r.threw
    ensures !r.closed ==> r.form.error == Some(InvalidCredentials) && Truthy(r.form.error)
    ensures r.closed ==> r.form.error == None
    ensures Settled(r.provider)
  {
    HandleSubmit(f, p, validate, true)
  }

  /** The login page's effect: once signed in, it replaces the route with "/". */
  predicate RedirectsHome(p: Cell<Json>) {
    Flag(p)
  }

  /**
   * A submit on the login page as written: the page renders the form with
   * an `onSuccess` prop the form does not declare, so `onClose` is undefined.
   */
  function LoginPageSubmitAsWritten(f: Form, p: Cell<Json>, validate: (string, string) -> bool): (r: Submitted)
    requires Settled(p)
    ensures r.threw <==> validate(f.username, f.password)
    ensures !r.closed
    ensures RedirectsHome(r.provider) <==> validate(f.username, f.password)
  {
    HandleSubmit(f, p, validate, false)
  }

  /** As written, every successful login on the login page throws; only the page's effect still redirects. */
  lemma LoginPageSuccessThrows(f: Form, p: Cell<Json>, validate: (string, string) -> bool)
    requires Settled(p)
    requires validate(f.username, f.password)
    ensures var r := LoginPageSubmitAsWritten(f, p, validate);
            r.threw && !r.closed && RedirectsHome(r.provider)
  {
  }

  /** A submit on the login page with its success handler passed as `onClose`. */
  function LoginPageSubmit(f: Form, p: Cell<Json>, validate: (string, string) -> bool): (r: Submitted)
    requires Settled(p)
    ensures !r.threw
    ensures r.closed <==> validate(f.username, f.password)
    ensures RedirectsHome(r.provider) <==> r.closed
  {
    Submit(f, p, validate)
  }

  /** With the handler wired as `onClose`, a successful login on the login page reaches it and never throws. */
  lemma LoginPageSuccessCloses(f: Form, p: Cell<Json>, validate: (string, string) -> bool)
    requires Settled(p)
    requires validate(f.username, f.password)
    ensures var r := LoginPageSubmit(f, p, validate);
            !r.threw && r.closed && RedirectsHome(r.provider) && r.form.error == None
  {
  }

  /** A failed attempt signs out even a viewer who was signed in. */
  lemma FailedSubmitSignsOut(f: Form, p: Cell<Json>, validate: (string, string) -> bool)
    requires Settled(p) && Flag(p)
    requires !validate(f.username, f.password)
    ensures !Flag(Submit(f, p, validate).provider)
  {
  }

  /** Correcting the fields after a failure and submitting again closes the dialog with no error left. */
  lemma RetryAfterFailure(f: Form, p: Cell<Json>, validate: (string, string) -> bool,
                          username: string, password: string)
    requires Settled(p)
    requires !validate(f.username, f.password) && validate(username, password)
    ensures var first := Submit(f, p, validate);
            var second := Submit(first.form.(username := username, password := password), first.provider, validate);
            && Truthy(first.form.error) && !first.closed
            && second.closed && second.form.error == None && Flag(second.provider)
  {
  }
}

=== FILE: page.dfy ===
/**
 * The events page: the sort-mode selection and the memoised derivations
 * that turn the loaded events, the authentication flag and the page's
 * controls into the feed, the category counts, the access counts and the
 * header statistics. The permission-scoped list is the common base of two
 * branches: search and category filtering for the feed, and the access
 * sub-filter for the category counts.
 */
module Page {
  import opened Seqs
  import opened Text
  import opened Sorting
  import opened Events
  import opened Filters
  import opened EventStore
  import opened EventCard
  import opened EventList

  datatype AccessFilter = AllAccess | PublicAccess | PrivateAccess

  datatype SortMode = StartMode | NameMode | SpeakersMode

  /** The value of a sort mode in the select control. */
  function SortModeValue(mode: SortMode): string {
    match mode
    case StartMode => "start"
    case NameMode => "name"
    case SpeakersMode => "speakers"
  }

  /** `SORT_MODES` */
  const SortModeValues: seq<string> := ["start", "name", "speakers"]

  /** `isSortMode`: `SORT_MODES.includes(value)`. */
  predicate IsSortMode(value: string)
    ensures IsSortMode(value) <==> value == "start" || value == "name" || value == "speakers"
  {
    value in SortModeValues
  }

  /** The mode a select value names, if it names one. */
  function ParseSortMode(value: string): (m: Option<SortMode>)
    ensures m.Some? <==> IsSortMode(value)
    ensures m.Some? ==> SortModeValue(m.value) == value
  {
    if value == "start" then Some(StartMode)
    else if value == "name" then Some(NameMode)
    else if value == "speakers" then Some(SpeakersMode)
    else None
  }

  lemma ParseSortModeRoundTrip(mode: SortMode)
    ensures ParseSortMode(SortModeValue(mode)) == Some(mode)
  {
  }

  /** `onValueChange` of the sort select: a recognised value is adopted, anything else ignored. */
  function SelectSortMode(current: SortMode, value: string): (next: SortMode)
    ensures IsSortMode(value) ==> SortModeValue(next) == value
    ensures !IsSortMode(value) ==> next == current
  {
    match ParseSortMode(value)
    case Some(mode) => mode
    case None => current
  }

  /**
   * `localeCompare` enters as `collate`; it must be a consistent comparator:
   * `collate(a, b) <= 0` is total and transitive.
   */
  ghost predicate ConsistentCollation(collate: (string, string) -> int) {
    && (forall a, b :: collate(a, b) <= 0 || collate(b, a) <= 0)
    && (forall a, b, c :: collate(a, b) <= 0 && collate(b, c) <= 0 ==> collate(a, c) <= 0)
  }

  /** `(a, b) => a.name.localeCompare(b.name)` is at most zero. */
  function NameNoLater(collate: (string, string) -> int): (Event, Event) -> bool {
    (a: Event, b: Event) => collate(a.name, b.name) <= 0
  }

  /** `(a, b) => b.speakers.length - a.speakers.length` is at most zero. */
  predicate MoreOrEqualSpeakers(a: Event, b: Event) {
    |a.speakers| >= |b.speakers|
  }

  lemma NameOrderIsTotalPreorder(collate: (string, string) -> int)
    requires ConsistentCollation(collate)
    ensures TotalPreorder(NameNoLater(collate))
  {
    var le := NameNoLater(collate);
    assert forall a: Event, b: Event :: le(a, b) == (collate(a.name, b.name) <= 0);
  }

  lemma SpeakerOrderIsTotalPreorder()
    ensures TotalPreorder(MoreOrEqualSpeakers)
  {
  }

  /**
   * `sortEvents`: start time ascending, name by `localeCompare`, or speaker
   * count descending; always a stable permutation of the input.
   */
  function SortEvents(events: seq<Event>, mode: SortMode, collate: (string, string) -> int): (r: seq<Event>)
    requires mode == NameMode ==> ConsistentCollation(collate)
    ensures multiset(r) == multiset(events)
    ensures mode == StartMode ==> r == SortByStartTime(events)
    ensures mode == NameMode ==>
              (forall i, j :: 0 <= i < j < |r| ==> collate(r[i].name, r[j].name) <= 0)
              && Stable(r, events, NameNoLater(collate))
    ensures mode == SpeakersMode ==>
              (forall i, j :: 0 <= i < j < |r| ==> |r[i].speakers| >= |r[j].speakers|)
              && Stable(r, events, MoreOrEqualSpeakers)
  {
    match mode
    case StartMode => SortByStartTime(events)
    case NameMode =>
      NameOrderIsTotalPreorder(collate);
      SortStable(events, NameNoLater(collate));
      var r := Sort(events, NameNoLater(collate));
      assert forall i, j :: 0 <= i < j < |r| ==> NameNoLater(collate)(r[i], r[j]);
      r
    case SpeakersMode =>
      SpeakerOrderIsTotalPreorder();
      SortStable(events, MoreOrEqualSpeakers);
      Sort(events, MoreOrEqualSpeakers)
  }

  /** The page's own controls: search text, category chip, access button and sort mode. */
  datatype Controls = Controls(searchQuery: string, eventTypeFilter: string, accessFilter: AccessFilter,
                               sortMode: SortMode)

  const DefaultControls: Controls := Controls("", AllTypes, AllAccess, StartMode)

  /** Whether the access selection lets an event through. "private" has no effect while signed out. */
  predicate AccessAdmits(access: AccessFilter, isAuthenticated: bool, e: Event) {
    match access
    case AllAccess => true
    case PublicAccess => e.permission == Public
    case PrivateAccess => !isAuthenticated || e.permission == Private
  }

  /**
   * The access sub-filter shared by `accessScopedForCategories` and
   * `filteredEvents`: "public" keeps the public events, "private" keeps the
   * private ones only while authenticated, anything else keeps everything.
   */
  function AccessScoped(events: seq<Event>, access: AccessFilter, isAuthenticated: bool): (r: seq<Event>)
    ensures access == PublicAccess ==> KeepsExactly(r, events, IsPublic)
    ensures access == PrivateAccess && isAuthenticated ==> KeepsExactly(r, events, IsPrivate)
    ensures access == AllAccess || (access == PrivateAccess && !isAuthenticated) ==> r == events
    ensures forall e :: e in r <==> e in events && AccessAdmits(access, isAuthenticated, e)
  {
    if access == PublicAccess then Filter(events, IsPublic)
    else if access == PrivateAccess && isAuthenticated then Filter(events, IsPrivate)
    else events
  }

  function PermissionScoped(events: seq<Event>, isAuthenticated: bool): seq<Event> {
    FilterByPermission(events, isAuthenticated)
  }

  function SearchScoped(events: seq<Event>, isAuthenticated: bool, c: Controls): seq<Event> {
    FilterBySearch(PermissionScoped(events, isAuthenticated), c.searchQuery)
  }

  function TypeScoped(events: seq<Event>, isAuthenticated: bool, c: Controls): seq<Event> {
    FilterByEventType(SearchScoped(events, isAuthenticated, c), c.eventTypeFilter)
  }

  /** The list the category chips count: search and access applied, category not. */
  function CategoryBase(events: seq<Event>, isAuthenticated: bool, c: Controls): seq<Event> {
    AccessScoped(SearchScoped(events, isAuthenticated, c), c.accessFilter, isAuthenticated)
  }

  datatype CategoryCounts = CategoryCounts(all: nat, workshop: nat, techTalk: nat, activity: nat)

  predicate IsKnownType(e: Event) {
    e.eventType == Workshop || e.eventType == TechTalk || e.eventType == Activity
  }

  /**
   * `eventTypeCounts`: the chips count the category base; the three named
   * categories never exceed the total and add up to it when every event has
   * one of them.
   */
  function EventTypeCounts(events: seq<Event>, isAuthenticated: bool, c: Controls): (counts: CategoryCounts)
    ensures counts.all == |CategoryBase(events, isAuthenticated, c)|
    ensures counts.workshop == |FilterByEventType(CategoryBase(events, isAuthenticated, c), Workshop)|
    ensures counts.techTalk == |FilterByEventType(CategoryBase(events, isAuthenticated, c), TechTalk)|
    ensures counts.activity == |FilterByEventType(CategoryBase(events, isAuthenticated, c), Activity)|
    ensures counts.workshop + counts.techTalk + counts.activity <= counts.all
    ensures (forall i :: 0 <= i < |events| ==> IsKnownType(events[i])) ==>
              counts.all == counts.workshop + counts.techTalk + counts.activity
  {
    var base := CategoryBase(events, isAuthenticated, c);
    TypeCountsAddUp(events, base);
    CategoryCounts(|base|, Count(base, OfType(Workshop)), Count(base, OfType(TechTalk)),
                   Count(base, OfType(Activity)))
  }

  lemma TypeCountsAddUp(events: seq<Event>, base: seq<Event>)
    requires forall x :: x in base ==> x in events
    ensures Count(base, OfType(Workshop)) + Count(base, OfType(TechTalk)) + Count(base, OfType(Activity)) <= |base|
    ensures (forall i :: 0 <= i < |events| ==> IsKnownType(events[i])) ==>
              |base| == Count(base, OfType(Workshop)) + Count(base, OfType(TechTalk)) + Count(base, OfType(Activity))
  {
    CountAtMost3(base, OfType(Workshop), OfType(TechTalk), OfType(Activity));
    if forall i :: 0 <= i < |events| ==> IsKnownType(events[i]) {
      assert forall i :: 0 <= i < |base| ==> base[i] in events;
      CountPartition3(base, OfType(Workshop), OfType(TechTalk), OfType(Activity));
    }
  }

  /** Switching category never changes the counts on the chips. */
  lemma CountsIgnoreCategory(events: seq<Event>, isAuthenticated: bool, c: Controls, category: string)
    ensures EventTypeCounts(events, isAuthenticated, c.(eventTypeFilter := category))
         == EventTypeCounts(events, isAuthenticated, c)
  {
  }

  /** Reference definition: the total number of speakers, summed structurally. */
  function SpeakerTotal(events: seq<Event>): nat {
    if events == [] then 0 else |events[0].speakers| + SpeakerTotal(events[1..])
  }

  /** `events.reduce((sum, event) => sum + event.speakers.length, acc)` */
  function SumSpeakers(events: seq<Event>, acc: nat): nat {
    if events == [] then acc else SumSpeakers(events[1..], acc + |events[0].speakers|)
  }

  lemma {:induction false} SumSpeakersIsTotal(events: seq<Event>, acc: nat)
    ensures SumSpeakers(events, acc) == acc + SpeakerTotal(events)
  {
    if events != [] {
      SumSpeakersIsTotal(events[1..], acc + |events[0].speakers|);
    }
  }

  datatype TopStats = TopStats(totalEvents: nat, publicEvents: nat, speakerCount: nat)

  /** `topStats`: computed from the permission-scoped list only. */
  function TopStatsOf(events: seq<Event>, isAuthenticated: bool): (stats: TopStats)
    ensures stats.totalEvents == |PermissionScoped(events, isAuthenticated)|
    ensures isAuthenticated ==> stats.totalEvents == |events|
    ensures stats.publicEvents <= stats.totalEvents
    ensures !isAuthenticated ==> stats.publicEvents == stats.totalEvents
    ensures stats.publicEvents == Count(events, IsPublic)
    ensures stats.speakerCount == SpeakerTotal(PermissionScoped(events, isAuthenticated))
  {
    var scoped := PermissionScoped(events, isAuthenticated);
    assert !isAuthenticated ==> Filter(scoped, IsPublic) == scoped by {
      if !isAuthenticated {
        FilterAll(scoped, IsPublic);
      }
    }
    SumSpeakersIsTotal(scoped, 0);
    TopStats(|scoped|, Count(scoped, IsPublic), SumSpeakers(scoped, 0))
  }

  datatype AccessCounts = AccessCounts(all: nat, publicCount: nat, privateCount: nat)

  /** `accessCounts`: counted after the category filter; public and private add up to all. */
  function AccessCountsOf(events: seq<Event>, isAuthenticated: bool, c: Controls): (counts: AccessCounts)
    ensures counts.all == |TypeScoped(events, isAuthenticated, c)|
    ensures counts.publicCount + counts.privateCount == counts.all
    ensures !isAuthenticated ==> counts.privateCount == 0
    ensures counts.publicCount == |AccessScoped(TypeScoped(events, isAuthenticated, c), PublicAccess, isAuthenticated)|
    ensures isAuthenticated ==>
              counts.privateCount == |AccessScoped(TypeScoped(events, isAuthenticated, c), PrivateAccess, isAuthenticated)|
  {
    var scoped := TypeScoped(events, isAuthenticated, c);
    CountComplement(scoped, IsPublic, IsPrivate);
    SignedOutScopeIsPublic(events, isAuthenticated, c);
    AccessCounts(|scoped|, Count(scoped, IsPublic), Count(scoped, IsPrivate))
  }

  /** A signed-out viewer's category-filtered list holds public events only, so none counts as private. */
  lemma SignedOutScopeIsPublic(events: seq<Event>, isAuthenticated: bool, c: Controls)
    ensures !isAuthenticated ==> Filter(TypeScoped(events, isAuthenticated, c), IsPrivate) == []
  {
    if !isAuthenticated {
      var p := PermissionScoped(events, false);
      var s := SearchScoped(events, false, c);
      var t := TypeScoped(events, false, c);
      assert forall e :: e in p ==> e.permission == Public;
      assert forall e :: e in s ==> e in p;
      forall i | 0 <= i < |t| ensures !IsPrivate(t[i]) {
        assert t[i] in t;
      }
      FilterNone(t, IsPrivate);
    }
  }

  /** The access sub-filter and a category filter may be applied in either order. */
  lemma AccessScopedCommutes(s: seq<Event>, t: string, access: AccessFilter, isAuthenticated: bool)
    requires t != AllTypes
    ensures AccessScoped(FilterByEventType(s, t), access, isAuthenticated)
         == FilterByEventType(AccessScoped(s, access, isAuthenticated), t)
  {
    if access == PublicAccess {
      FilterCommute(s, OfType(t), IsPublic);
    } else if access == PrivateAccess && isAuthenticated {
      FilterCommute(s, OfType(t), IsPrivate);
    }
  }

  /** The count on the chip of a named category. */
  function ChipCount(counts: CategoryCounts, t: string): nat {
    if t == Workshop then counts.workshop else if t == TechTalk then counts.techTalk else counts.activity
  }

  /** The number on a category chip is the number of events the feed shows once that chip is selected. */
  lemma ChipCountMatchesFeed(events: seq<Event>, isAuthenticated: bool, c: Controls, t: string,
                             collate: (string, string) -> int)
    requires t == Workshop || t == TechTalk || t == Activity
    requires c.sortMode == NameMode ==> ConsistentCollation(collate)
    ensures ChipCount(EventTypeCounts(events, isAuthenticated, c), t)
         == |FilteredEvents(events, isAuthenticated, c.(eventTypeFilter := t), collate)|
  {
    var selected := c.(eventTypeFilter := t);
    var s := SearchScoped(events, isAuthenticated, c);
    assert SearchScoped(events, isAuthenticated, selected) == s;
    var scoped := AccessScoped(TypeScoped(events, isAuthenticated, selected), c.accessFilter, isAuthenticated);
    var r := FilteredEvents(events, isAuthenticated, selected, collate);
    assert |r| == |scoped| by {
      assert |multiset(r)| == |multiset(scoped)|;
    }
    AccessScopedCommutes(s, t, c.accessFilter, isAuthenticated);
  }

  /**
   * The count on the "public" button, and on the "private" one when signed
   * in, is the number of events the feed shows once that button is selected.
   */
  lemma AccessCountMatchesFeed(events: seq<Event>, isAuthenticated: bool, c: Controls,
                               collate: (string, string) -> int)
    requires c.sortMode == NameMode ==> ConsistentCollation(collate)
    ensures AccessCountsOf(events, isAuthenticated, c).publicCount
         == |FilteredEvents(events, isAuthenticated, c.(accessFilter := PublicAccess), collate)|
    ensures isAuthenticated ==>
              (AccessCountsOf(events, isAuthenticated, c).privateCount
               == |FilteredEvents(events, isAuthenticated, c.(accessFilter := PrivateAccess), collate)|)
  {
    var pub := c.(accessFilter := PublicAccess);
    var priv := c.(accessFilter := PrivateAccess);
    var t := TypeScoped(events, isAuthenticated, c);
    assert TypeScoped(events, isAuthenticated, pub) == t;
    assert TypeScoped(events, isAuthenticated, priv) == t;
    var r := FilteredEvents(events, isAuthenticated, pub, collate);
    assert |multiset(r)| == |multiset(AccessScoped(t, PublicAccess, isAuthenticated))|;
    var q := FilteredEvents(events, isAuthenticated, priv, collate);
    assert |multiset(q)| == |multiset(AccessScoped(t, PrivateAccess, isAuthenticated))|;
  }

  /** Every test an event must pass to reach the feed. */
  predicate ShownInFeed(e: Event, isAuthenticated: bool, c: Controls) {
    && (isAuthenticated || e.permission == Public)
    && (IsBlank(c.searchQuery) || MatchesQuery(e, NormalizeQuery(c.searchQuery)))
    && (c.eventTypeFilter == AllTypes || e.eventType == c.eventTypeFilter)
    && AccessAdmits(c.accessFilter, isAuthenticated, e)
  }

  /** An event survives the four scoping steps exactly when it passes every control. */
  lemma ScopedMembers(events: seq<Event>, isAuthenticated: bool, c: Controls)
    ensures forall e :: e in AccessScoped(TypeScoped(events, isAuthenticated, c), c.accessFilter, isAuthenticated)
                    <==> e in events && ShownInFeed(e, isAuthenticated, c)
  {
    var p := PermissionScoped(events, isAuthenticated);
    var s := SearchScoped(events, isAuthenticated, c);
    var t := TypeScoped(events, isAuthenticated, c);
    var a := AccessScoped(t, c.accessFilter, isAuthenticated);
    assert forall e :: e in p <==> e in events && (isAuthenticated || e.permission == Public);
    assert forall e :: e in s <==> e in p && (IsBlank(c.searchQuery) || MatchesQuery(e, NormalizeQuery(c.searchQuery)));
    assert forall e :: e in t <==> e in s && (c.eventTypeFilter == AllTypes || e.eventType == c.eventTypeFilter);
    assert forall e :: e in a <==> e in t && AccessAdmits(c.accessFilter, isAuthenticated, e);
  }

  /**
   * `filteredEvents`: the category-filtered list after the access
   * sub-filter, sorted by the selected mode. An event is in the feed exactly
   * when it is one of the loaded events and passes every control.
   */
  function FilteredEvents(events: seq<Event>, isAuthenticated: bool, c: Controls,
                          collate: (string, string) -> int): (r: seq<Event>)
    requires c.sortMode == NameMode ==> ConsistentCollation(collate)
    ensures multiset(r) == multiset(AccessScoped(TypeScoped(events, isAuthenticated, c), c.accessFilter, isAuthenticated))
    ensures forall e :: e in r <==> e in events && ShownInFeed(e, isAuthenticated, c)
    ensures forall k :: 0 <= k < |r| ==> r[k] in events
    ensures r == SortEvents(AccessScoped(TypeScoped(events, isAuthenticated, c), c.accessFilter, isAuthenticated),
                            c.sortMode, collate)
  {
    var scoped := AccessScoped(TypeScoped(events, isAuthenticated, c), c.accessFilter, isAuthenticated);
    ScopedMembers(events, isAuthenticated, c);
    var r := SortEvents(scoped, c.sortMode, collate);
    SameMembers(r, scoped);
    r
  }

  /** The "Upcoming" aside of the page: skeletons while loading, a note on error, else the first eight. */
  datatype Upcoming = Upcoming(skeleton: bool, failureNote: bool, items: seq<Event>)

  function UpcomingOf(filtered: seq<Event>, loading: bool, error: Option<string>): (u: Upcoming)
    ensures u.skeleton == loading
    ensures u.failureNote == Truthy(error)
    ensures u.items != [] ==> !loading && !Truthy(error)
    ensures !loading && !Truthy(error) ==>
              |u.items| == (if |filtered| < NextUpLimit then |filtered| else NextUpLimit)
    ensures u.items == filtered[..|u.items|]
  {
    if !loading && !Truthy(error) then Upcoming(loading, Truthy(error), Take(filtered, NextUpLimit))
    else Upcoming(loading, Truthy(error), [])
  }

  /**
   * The aside and the feed agree: once loaded without error, the aside shows
   * the first eight filtered events, which are the events of the feed's first
   * cards, in the same order.
   */
  lemma UpcomingIsFeedHead(store: FetchState, isAuthenticated: bool, c: Controls,
                           collate: (string, string) -> int)
    requires c.sortMode == NameMode ==> ConsistentCollation(collate)
    ensures !store.loading && !Truthy(store.error) ==>
              UpcomingOf(FilteredEvents(store.events, isAuthenticated, c, collate), store.loading, store.error).items
              == Take(FilteredEvents(store.events, isAuthenticated, c, collate), NextUpLimit)
    ensures var u := UpcomingOf(FilteredEvents(store.events, isAuthenticated, c, collate), store.loading, store.error);
            var v := Feed(store, isAuthenticated, c, collate);
            v.ListView? ==> |u.items| <= |v.cards| && forall k :: 0 <= k < |u.items| ==> u.items[k] == v.cards[k].event
  {
  }

  /** The feed as rendered: `EventList` over the filtered events, cards resolving against the permission-scoped list. */
  function Feed(store: FetchState, isAuthenticated: bool, c: Controls, collate: (string, string) -> int): (v: View)
    requires c.sortMode == NameMode ==> ConsistentCollation(collate)
    ensures store.loading ==> v == LoadingView
    ensures v.ListView? ==> forall k :: 0 <= k < |v.cards| ==> v.cards[k].event in store.events
    ensures v.ListView? ==> forall k :: 0 <= k < |v.cards| ==> !v.cards[k].locked
    ensures !store.loading ==>
              v == SelectView(PermissionScoped(store.events, isAuthenticated),
                              FilteredEvents(store.events, isAuthenticated, c, collate),
                              false, store.error, isAuthenticated)
  {
    var filtered := FilteredEvents(store.events, isAuthenticated, c, collate);
    var all := PermissionScoped(store.events, isAuthenticated);
    forall k | 0 <= k < |filtered|
      ensures filtered[k] in store.events && (isAuthenticated || filtered[k].permission == Public)
    {
      assert filtered[k] in filtered;
    }
    var v := SelectView(all, filtered, store.loading, store.error, isAuthenticated);
    FeedCards(all, filtered, store.events, store.loading, store.error, isAuthenticated, v);
    v
  }

  /** Cards over events drawn from `events`, none of them private unless the viewer is signed in, show those events unlocked. */
  lemma FeedCards(all: seq<Event>, filtered: seq<Event>, events: seq<Event>, loading: bool, error: Option<string>,
                  isAuthenticated: bool, v: View)
    requires forall k :: 0 <= k < |filtered| ==>
               filtered[k] in events && (isAuthenticated || filtered[k].permission == Public)
    requires v == SelectView(all, filtered, loading, error, isAuthenticated)
    ensures v.ListView? ==> forall k :: 0 <= k < |v.cards| ==> v.cards[k].event in events
    ensures v.ListView? ==> forall k :: 0 <= k < |v.cards| ==> !v.cards[k].locked
  {
    if v.ListView? {
      forall k | 0 <= k < |v.cards|
        ensures v.cards[k].event in events && !v.cards[k].locked
      {
        assert v.cards[k] == CardOf(filtered[k], all, isAuthenticated);
      }
    }
  }
}

=== FILE: seqs.dfy ===
/**
 * Sequence helpers shared by the event pipeline: an Option type, an
 * order-preserving filter (JavaScript's `Array.prototype.filter`), the
 * subsequence relation it establishes, and counting.
 */
module Seqs {

  /** `undefined`/`null`-able values: the optional fields of an event, lookups that may fail. */
  datatype Option<+T> = None | Some(value: T) {
    /** `x ?? fallback` */
    function GetOr(fallback: T): T {
      match this
      case Some(v) => v
      case None => fallback
    }
  }

  /** `a` is obtained from `b` by deleting elements, keeping the order of the rest. */
  predicate IsSubseq<T(==)>(a: seq<T>, b: seq<T>)
    decreases |b|
  {
    if a == [] then true
    else if b == [] then false
    else if a[0] == b[0] then IsSubseq(a[1..], b[1..])
    else IsSubseq(a, b[1..])
  }

  /**
   * `r` keeps exactly the elements of `s` satisfying `p`: in the original
   * order, each one as many times as it occurs in `s`, and nothing else.
   */
  ghost predicate KeepsExactly<T(!new)>(r: seq<T>, s: seq<T>, p: T -> bool) {
    && IsSubseq(r, s)
    && (forall x :: multiset(r)[x] == if p(x) then multiset(s)[x] else 0)
  }

  /** `s.filter(p)` */
  function Filter<T(!new)>(s: seq<T>, p: T -> bool): (r: seq<T>)
    ensures KeepsExactly(r, s, p)
    ensures forall x :: x in r <==> x in s && p(x)
    ensures |r| <= |s|
  {
    if s == [] then []
    else
      var rest := Filter(s[1..], p);
      assert s == [s[0]] + s[1..];
      if p(s[0]) then
        assert ([s[0]] + rest)[1..] == rest;
        [s[0]] + rest
      else
        assert rest != [] ==> rest[0] != s[0] by {
          if rest != [] { assert rest[0] in rest; }
        }
        rest
  }

  /** `s.filter(p).length` */
  function Count<T(!new)>(s: seq<T>, p: T -> bool): (n: nat)
    ensures n <= |s|
  {
    |Filter(s, p)|
  }

  /** Filtering distributes over concatenation. */
  lemma {:induction false} FilterAppend<T(!new)>(a: seq<T>, b: seq<T>, p: T -> bool)
    ensures Filter(a + b, p) == Filter(a, p) + Filter(b, p)
  {
    if a == [] {
      assert a + b == b;
    } else {
      assert (a + b)[1..] == a[1..] + b;
      FilterAppend(a[1..], b, p);
    }
  }

  /** Two filters in a row are one filter by the conjunction of their predicates. */
  lemma {:induction false} FilterFilter<T(!new)>(s: seq<T>, p: T -> bool, q: T -> bool)
    ensures Filter(Filter(s, p), q) == Filter(s, x => p(x) && q(x))
  {
    if s != [] {
      FilterFilter(s[1..], p, q);
    }
  }

  /** Two filters may be applied in either order. */
  lemma FilterCommute<T(!new)>(s: seq<T>, p: T -> bool, q: T -> bool)
    ensures Filter(Filter(s, p), q) == Filter(Filter(s, q), p)
  {
    FilterFilter(s, p, q);
    FilterFilter(s, q, p);
    FilterCongruent(s, x => p(x) && q(x), x => q(x) && p(x));
  }

  /** Four filters in a row are one filter by the conjunction of their four predicates. */
  lemma FilterChain4<T(!new)>(s: seq<T>, a: T -> bool, b: T -> bool, c: T -> bool, d: T -> bool, p: T -> bool)
    requires forall x :: p(x) == (a(x) && b(x) && c(x) && d(x))
    ensures Filter(Filter(Filter(Filter(s, a), b), c), d) == Filter(s, p)
  {
    var ab := x => a(x) && b(x);
    var abc := x => ab(x) && c(x);
    FilterFilter(s, a, b);
    FilterFilter(s, ab, c);
    FilterFilter(s, abc, d);
    FilterCongruent(s, x => abc(x) && d(x), p);
  }

  /** Filtering by a predicate that every element satisfies changes nothing. */
  lemma {:induction false} FilterAll<T(!new)>(s: seq<T>, p: T -> bool)
    requires forall i :: 0 <= i < |s| ==> p(s[i])
    ensures Filter(s, p) == s
  {
    if s != [] {
      FilterAll(s[1..], p);
    }
  }

  /** Filtering by a predicate that no element satisfies leaves nothing. */
  lemma {:induction false} FilterNone<T(!new)>(s: seq<T>, p: T -> bool)
    requires forall i :: 0 <= i < |s| ==> !p(s[i])
    ensures Filter(s, p) == []
  {
    if s != [] {
      FilterNone(s[1..], p);
    }
  }

  /** Filters by two predicates that agree on every element of `s` give the same result. */
  lemma {:induction false} FilterCongruent<T(!new)>(s: seq<T>, p: T -> bool, q: T -> bool)
    requires forall i :: 0 <= i < |s| ==> p(s[i]) == q(s[i])
    ensures Filter(s, p) == Filter(s, q)
  {
    if s != [] {
      FilterCongruent(s[1..], p, q);
    }
  }

  /**
   * When every element satisfies exactly one of three predicates, the three
   * counts add up to the length.
   */
  lemma {:induction false} CountPartition3<T(!new)>(s: seq<T>, p: T -> bool, q: T -> bool, u: T -> bool)
    requires forall i :: 0 <= i < |s| ==> (p(s[i]) || q(s[i]) || u(s[i]))
    requires forall i :: 0 <= i < |s| ==> !(p(s[i]) && q(s[i])) && !(p(s[i]) && u(s[i])) && !(q(s[i]) && u(s[i]))
    ensures |s| == Count(s, p) + Count(s, q) + Count(s, u)
  {
    if s != [] {
      CountPartition3(s[1..], p, q, u);
    }
  }

  /** Three predicates no two of which hold together count at most the length. */
  lemma {:induction false} CountAtMost3<T(!new)>(s: seq<T>, p: T -> bool, q: T -> bool, u: T -> bool)
    requires forall i :: 0 <= i < |s| ==> !(p(s[i]) && q(s[i])) && !(p(s[i]) && u(s[i])) && !(q(s[i]) && u(s[i]))
    ensures Count(s, p) + Count(s, q) + Count(s, u) <= |s|
  {
    if s != [] {
      CountAtMost3(s[1..], p, q, u);
    }
  }

  /** A predicate and its negation split a sequence's length. */
  lemma {:induction false} CountComplement<T(!new)>(s: seq<T>, p: T -> bool, q: T -> bool)
    requires forall i :: 0 <= i < |s| ==> p(s[i]) != q(s[i])
    ensures |s| == Count(s, p) + Count(s, q)
  {
    if s != [] {
      CountComplement(s[1..], p, q);
    }
  }

  /** Sequences with equal multisets have the same members. */
  lemma SameMembers<T>(a: seq<T>, b: seq<T>)
    requires multiset(a) == multiset(b)
    ensures forall x :: x in a <==> x in b
  {
    forall x ensures x in a <==> x in b {
      assert x in a <==> x in multiset(a);
      assert x in b <==> x in multiset(b);
    }
  }

  /** `s.slice(0, n)` for a non-negative `n`: the first `min(n, |s|)` elements. */
  function Take<T>(s: seq<T>, n: nat): (r: seq<T>)
    ensures |r| == if n < |s| then n else |s|
    ensures forall i :: 0 <= i < |r| ==> r[i] == s[i]
  {
    if n < |s| then s[..n] else s
  }
}

=== FILE: sorting.dfy ===
/**
 * `[...xs].sort(compare)` with a consistent comparator. Since its 2019
 * edition (section 22.1.3.27 there) ECMA-262 requires `Array.prototype.sort`
 * to be stable, and for a consistent comparator there is exactly one stable sorted
 * permutation; it is computed here by insertion sort. The comparator enters
 * as the relation `le(a, b)`, meaning `compare(a, b) <= 0`.
 */
module Sorting {

  /** Any two elements are comparable one way or the other. */
  ghost predicate Total<T(!new)>(le: (T, T) -> bool) {
    forall a, b :: le(a, b) || le(b, a)
  }

  ghost predicate Transitive<T(!new)>(le: (T, T) -> bool) {
    forall a, b, c :: le(a, b) && le(b, c) ==> le(a, c)
  }

  /** `le` is total and transitive: a consistent comparator in the sense of ECMA-262. */
  ghost predicate TotalPreorder<T(!new)>(le: (T, T) -> bool) {
    Total(le) && Transitive(le)
  }

  /** Every element is `le` every later element. */
  predicate SortedBy<T>(s: seq<T>, le: (T, T) -> bool) {
    forall i, j :: 0 <= i < j < |s| ==> le(s[i], s[j])
  }

  /** The elements of `s` that compare equal to `x`, in their order in `s`. */
  function Peers<T>(s: seq<T>, le: (T, T) -> bool, x: T): seq<T> {
    if s == [] then []
    else (if le(x, s[0]) && le(s[0], x) then [s[0]] else []) + Peers(s[1..], le, x)
  }

  /** `r` keeps every group of mutually equal elements of `s` in its original order. */
  ghost predicate Stable<T(!new)>(r: seq<T>, s: seq<T>, le: (T, T) -> bool) {
    forall x :: Peers(r, le, x) == Peers(s, le, x)
  }

  /** Prepending an element that is `le` everything in a sorted list keeps it sorted. */
  lemma ConsSorted<T>(h: T, t: seq<T>, le: (T, T) -> bool)
    requires SortedBy(t, le)
    requires forall z :: z in t ==> le(h, z)
    ensures SortedBy([h] + t, le)
  {
    var r := [h] + t;
    forall i, j | 0 <= i < j < |r| ensures le(r[i], r[j]) {
      assert r[j] == t[j - 1];
      if i > 0 {
        assert r[i] == t[i - 1];
      }
    }
  }

  /** In a sorted list, anything `le` the head is `le` every element. */
  lemma BelowHead<T(!new)>(x: T, s: seq<T>, le: (T, T) -> bool)
    requires Transitive(le)
    requires SortedBy(s, le)
    requires s != [] && le(x, s[0])
    ensures forall z :: z in s ==> le(x, z)
  {
    forall z | z in s ensures le(x, z) {
      var k :| 0 <= k < |s| && s[k] == z;
      if k > 0 {
        assert le(s[0], s[k]);
      }
    }
  }

  /** Inserts `x` into sorted `s` in front of the first element it is `le`. */
  function Insert<T(==,!new)>(x: T, s: seq<T>, le: (T, T) -> bool): (r: seq<T>)
    requires TotalPreorder(le)
    requires SortedBy(s, le)
    ensures multiset(r) == multiset(s) + multiset{x}
    ensures forall z :: z in r <==> z == x || z in s
    ensures SortedBy(r, le)
  {
    if s == [] then
      [x]
    else if le(x, s[0]) then
      BelowHead(x, s, le);
      ConsSorted(x, s, le);
      [x] + s
    else
      var rest := Insert(x, s[1..], le);
      assert s == [s[0]] + s[1..];
      assert le(s[0], x);
      BelowHead(s[0], s, le);
      ConsSorted(s[0], rest, le);
      [s[0]] + rest
  }

  lemma {:induction false} PeersAppend<T>(a: seq<T>, b: seq<T>, le: (T, T) -> bool, y: T)
    ensures Peers(a + b, le, y) == Peers(a, le, y) + Peers(b, le, y)
  {
    if a == [] {
      assert a + b == b;
    } else {
      assert (a + b)[0] == a[0];
      assert (a + b)[1..] == a[1..] + b;
      PeersAppend(a[1..], b, le, y);
    }
  }

  /** Two elements that are not peers of each other cannot both be peers of `y`. */
  lemma NotBothPeers<T(!new)>(x: T, h: T, le: (T, T) -> bool, y: T)
    requires TotalPreorder(le)
    requires !le(x, h)
    ensures Peers([x], le, y) == [] || Peers([h], le, y) == []
  {
    assert le(x, y) && le(y, h) ==> le(x, h);
  }

  /** Peers are computed element by element, so a common head can be cancelled. */
  lemma PeersCons<T>(h: T, a: seq<T>, b: seq<T>, le: (T, T) -> bool, y: T)
    requires Peers(a, le, y) == Peers(b, le, y)
    ensures Peers([h] + a, le, y) == Peers([h] + b, le, y)
  {
    PeersAppend([h], a, le, y);
    PeersAppend([h], b, le, y);
  }

  /** Two adjacent elements that are not peers of each other may swap places without changing any group of peers. */
  lemma {:induction false} PeersSwap<T(!new)>(x: T, h: T, t: seq<T>, le: (T, T) -> bool, y: T)
    requires TotalPreorder(le)
    requires !le(x, h)
    ensures Peers([h] + ([x] + t), le, y) == Peers([x] + ([h] + t), le, y)
  {
    NotBothPeers(x, h, le, y);
    PeersAppend([h], [x] + t, le, y);
    PeersAppend([x], t, le, y);
    PeersAppend([x], [h] + t, le, y);
    PeersAppend([h], t, le, y);
  }

  /** Inserting in front of every peer keeps each group of peers in order. */
  lemma {:induction false} InsertPeers<T(!new)>(x: T, s: seq<T>, le: (T, T) -> bool, y: T)
    requires TotalPreorder(le)
    requires SortedBy(s, le)
    ensures Peers(Insert(x, s, le), le, y) == Peers([x] + s, le, y)
  {
    if s != [] && !le(x, s[0]) {
      var h, t := s[0], s[1..];
      assert s == [h] + t;
      var rest := Insert(x, t, le);
      assert Insert(x, s, le) == [h] + rest;
      InsertPeers(x, t, le, y);
      PeersCons(h, rest, [x] + t, le, y);
      PeersSwap(x, h, t, le, y);
    }
  }

  /** Stable insertion sort. */
  function Sort<T(==,!new)>(s: seq<T>, le: (T, T) -> bool): (r: seq<T>)
    requires TotalPreorder(le)
    ensures multiset(r) == multiset(s)
    ensures SortedBy(r, le)
  {
    if s == [] then []
    else
      assert s == [s[0]] + s[1..];
      Insert(s[0], Sort(s[1..], le), le)
  }

  /** The sort keeps every group of equal elements in input order. */
  lemma {:induction false} SortStable<T(!new)>(s: seq<T>, le: (T, T) -> bool)
    requires TotalPreorder(le)
    ensures Stable(Sort(s, le), s, le)
  {
    if s != [] {
      SortStable(s[1..], le);
      forall y
        ensures Peers(Sort(s, le), le, y) == Peers(s, le, y)
      {
        var t := Sort(s[1..], le);
        InsertPeers(s[0], t, le, y);
        PeersAppend([s[0]], t, le, y);
        PeersAppend([s[0]], s[1..], le, y);
        assert s == [s[0]] + s[1..];
      }
    }
  }

  /** A sequence that is already sorted comes back unchanged. */
  lemma {:induction false} SortSortedIsIdentity<T(!new)>(s: seq<T>, le: (T, T) -> bool)
    requires TotalPreorder(le)
    requires SortedBy(s, le)
    ensures Sort(s, le) == s
  {
    if s != [] {
      SortSortedIsIdentity(s[1..], le);
      assert SortedBy(s[1..], le);
      assert s == [s[0]] + s[1..];
    }
  }

  /** Sorting twice is sorting once. */
  lemma SortIdempotent<T(!new)>(s: seq<T>, le: (T, T) -> bool)
    requires TotalPreorder(le)
    ensures Sort(Sort(s, le), le) == Sort(s, le)
  {
    SortSortedIsIdentity(Sort(s, le), le);
  }
}

=== FILE: text.dfy ===
/**
 * The string operations the event pipeline relies on: `trim`, ASCII models of
 * `toLowerCase`/`toUpperCase`, `includes`, `join`, `split(" ")` and
 * `replace` with a one-character pattern. Strings are sequences of Unicode
 * scalar values; UTF-16 code units and locale-sensitive case mapping are not
 * modelled.
 */
module Text {
  import opened Seqs

  /**
   * The characters `String.prototype.trim` removes: ECMAScript WhiteSpace
   * (TAB, VT, FF, SP, NBSP, ZWNBSP and the other Zs space separators) and
   * LineTerminator (LF, CR, LS, PS).
   */
  predicate IsTrimmable(c: char) {
    || '\t' <= c <= '\r'
    || c == ' ' || c == '\U{00A0}' || c == '\U{1680}'
    || '\U{2000}' <= c <= '\U{200A}'
    || c == '\U{2028}' || c == '\U{2029}' || c == '\U{202F}' || c == '\U{205F}'
    || c == '\U{3000}' || c == '\U{FEFF}'
  }

  /** The string is empty or consists only of trimmable characters. */
  predicate IsBlank(s: string) {
    forall i :: 0 <= i < |s| ==> IsTrimmable(s[i])
  }

  /** The number of trimmable characters at the start of `s`. */
  function LeadingBlanks(s: string): (n: nat)
    ensures n <= |s|
    ensures forall k :: 0 <= k < n ==> IsTrimmable(s[k])
    ensures n < |s| ==> !IsTrimmable(s[n])
  {
    if s == [] || !IsTrimmable(s[0]) then 0
    else
      var n := LeadingBlanks(s[1..]);
      assert forall k :: 1 <= k < n + 1 ==> s[k] == s[1..][k - 1];
      n + 1
  }

  /** The position where the trailing run of trimmable characters of `s` begins. */
  function TrailingBlanksStart(s: string): (n: nat)
    ensures n <= |s|
    ensures forall k :: n <= k < |s| ==> IsTrimmable(s[k])
    ensures n > 0 ==> !IsTrimmable(s[n - 1])
  {
    if s == [] || !IsTrimmable(s[|s| - 1]) then |s|
    else TrailingBlanksStart(s[..|s| - 1])
  }

  /** `r` is `s` with trimmable characters cut off before position `i` and after `r`. */
  predicate TrimsTo(s: string, i: int, r: string) {
    && 0 <= i && i + |r| <= |s| && s[i..i + |r|] == r
    && (forall k :: 0 <= k < i ==> IsTrimmable(s[k]))
    && (forall k :: i + |r| <= k < |s| ==> IsTrimmable(s[k]))
  }

  /**
   * `s.trim()`: the result is a contiguous piece of `s` that neither starts
   * nor ends with a trimmable character, and everything cut off on either
   * side is trimmable.
   */
  function Trim(s: string): (r: string)
    ensures r == [] || (!IsTrimmable(r[0]) && !IsTrimmable(r[|r| - 1]))
    ensures exists i :: TrimsTo(s, i, r)
    ensures r == [] <==> IsBlank(s)
  {
    var i := LeadingBlanks(s);
    if i == |s| then
      assert TrimsTo(s, i, []);
      []
    else
      var j := TrailingBlanksStart(s);
      assert i < j;
      assert TrimsTo(s, i, s[i..j]);
      s[i..j]
  }

  /** JavaScript truthiness of an optional string: present and non-empty. */
  predicate Truthy(s: Option<string>) {
    s.Some? && s.value != ""
  }

  /** ASCII model of `toLowerCase` on one character. */
  function LowerChar(c: char): char {
    if 'A' <= c <= 'Z' then (c as int - 'A' as int + 'a' as int) as char else c
  }

  /** ASCII model of `toUpperCase` on one character. */
  function UpperChar(c: char): char {
    if 'a' <= c <= 'z' then (c as int - 'a' as int + 'A' as int) as char else c
  }

  /** ASCII model of `s.toLowerCase()`: character by character, length preserved. */
  function Lower(s: string): (r: string)
    ensures |r| == |s|
    ensures forall i :: 0 <= i < |s| ==> r[i] == LowerChar(s[i])
  {
    if s == [] then [] else [LowerChar(s[0])] + Lower(s[1..])
  }

  /** ASCII model of `s.toUpperCase()`: character by character, length preserved. */
  function UpperAll(s: string): (r: string)
    ensures |r| == |s|
    ensures forall k :: 0 <= k < |s| ==> r[k] == UpperChar(s[k])
  {
    if s == [] then [] else [UpperChar(s[0])] + UpperAll(s[1..])
  }

  /** `needle` occurs at position `i` of `hay`. */
  predicate OccursAt(hay: string, needle: string, i: int) {
    0 <= i && i + |needle| <= |hay| && hay[i..i + |needle|] == needle
  }

  /** `hay.includes(needle)`, decided by scanning start positions left to right. */
  function Includes(hay: string, needle: string): (b: bool)
    ensures b <==> exists i :: OccursAt(hay, needle, i)
    decreases |hay|
  {
    if |needle| > |hay| then false
    else if hay[..|needle|] == needle then
      assert OccursAt(hay, needle, 0);
      true
    else
      var b := Includes(hay[1..], needle);
      assert b ==> exists i :: OccursAt(hay, needle, i) by {
        if b {
          var k :| OccursAt(hay[1..], needle, k);
          assert hay[k + 1..k + 1 + |needle|] == hay[1..][k..k + |needle|];
          assert OccursAt(hay, needle, k + 1);
        }
      }
      assert (exists i :: OccursAt(hay, needle, i)) ==> b by {
        if exists i :: OccursAt(hay, needle, i) {
          var i :| OccursAt(hay, needle, i);
          assert i != 0;
          assert hay[1..][i - 1..i - 1 + |needle|] == hay[i..i + |needle|];
          assert OccursAt(hay[1..], needle, i - 1);
        }
      }
      b
  }

  /** A substring of a substring is a substring. */
  lemma IncludesTransitive(outer: string, middle: string, inner: string, at: int)
    requires OccursAt(outer, middle, at)
    requires Includes(middle, inner)
    ensures Includes(outer, inner)
  {
    var k :| OccursAt(middle, inner, k);
    assert middle == outer[at..at + |middle|];
    forall t | k <= t < k + |inner|
      ensures outer[at + t] == middle[t]
    {
      assert middle[t] == outer[at..at + |middle|][t];
    }
    assert outer[at + k..at + k + |inner|] == middle[k..k + |inner|];
    assert OccursAt(outer, inner, at + k);
  }

  /** `parts.join(sep)` */
  function Join(parts: seq<string>, sep: string): string {
    if parts == [] then ""
    else if |parts| == 1 then parts[0]
    else parts[0] + sep + Join(parts[1..], sep)
  }

  /** Every part of a join occurs in the joined string. */
  lemma {:induction false} JoinContainsPart(parts: seq<string>, sep: string, k: nat)
    requires k < |parts|
    ensures exists at :: OccursAt(Join(parts, sep), parts[k], at)
  {
    var j := Join(parts, sep);
    if |parts| == 1 {
      assert OccursAt(j, parts[k], 0);
    } else if k == 0 {
      assert j[0..|parts[0]|] == parts[0];
      assert OccursAt(j, parts[k], 0);
    } else {
      JoinContainsPart(parts[1..], sep, k - 1);
      var tail := Join(parts[1..], sep);
      var at :| OccursAt(tail, parts[1..][k - 1], at);
      var off := |parts[0]| + |sep|;
      assert j == parts[0] + sep + tail;
      assert j[off + at..off + at + |parts[k]|] == tail[at..at + |parts[k]|];
      assert OccursAt(j, parts[k], off + at);
    }
  }

  /**
   * `s.split(" ")`: the pieces between single spaces, in order. There is
   * always at least one piece, and consecutive spaces yield empty pieces.
   */
  function SplitOnSpace(s: string): (r: seq<string>)
    ensures |r| >= 1
    ensures forall k :: 0 <= k < |r| ==> ' ' !in r[k]
  {
    if s == [] then [""]
    else
      var rest := SplitOnSpace(s[1..]);
      if s[0] == ' ' then [""] + rest
      else
        assert ' ' !in [s[0]] + rest[0];
        [[s[0]] + rest[0]] + rest[1..]
  }

  /** Gluing a prefix onto the first part of a join glues it onto the whole join. */
  lemma JoinPrefixHead(c: string, parts: seq<string>, sep: string)
    requires parts != []
    ensures Join([c + parts[0]] + parts[1..], sep) == c + Join(parts, sep)
  {
    var glued := [c + parts[0]] + parts[1..];
    assert glued[0] == c + parts[0] && glued[1..] == parts[1..];
    if |parts| > 1 {
      assert c + parts[0] + sep + Join(parts[1..], sep) == c + (parts[0] + sep + Join(parts[1..], sep));
    }
  }

  /** `s.split(" ").join(" ")` gives back `s`: the pieces are exactly the text between the spaces. */
  lemma {:induction false} SplitOnSpaceRejoins(s: string)
    ensures Join(SplitOnSpace(s), " ") == s
  {
    if s != [] {
      var rest := SplitOnSpace(s[1..]);
      SplitOnSpaceRejoins(s[1..]);
      assert s == [s[0]] + s[1..];
      if s[0] == ' ' {
        assert SplitOnSpace(s) == [""] + rest;
        assert ([""] + rest)[1..] == rest;
        assert Join(SplitOnSpace(s), " ") == "" + " " + Join(rest, " ");
      } else {
        assert SplitOnSpace(s) == [[s[0]] + rest[0]] + rest[1..];
        JoinPrefixHead([s[0]], rest, " ");
      }
    }
  }

  /** The test `Boolean` applies to a string: it is non-empty. */
  predicate IsNonEmpty(piece: string) {
    piece != []
  }

  /** `pieces.filter(Boolean)` on strings: every non-empty piece, in order, and nothing else. */
  function NonEmpty(pieces: seq<string>): (r: seq<string>)
    ensures KeepsExactly(r, pieces, IsNonEmpty)
    ensures forall k :: 0 <= k < |r| ==> r[k] != [] && r[k] in pieces
  {
    var r := Filter(pieces, IsNonEmpty);
    assert forall k :: 0 <= k < |r| ==> r[k] in r;
    r
  }

  /** The first character of every (non-empty) word. */
  function FirstChars(words: seq<string>): (r: string)
    requires forall k :: 0 <= k < |words| ==> words[k] != []
    ensures |r| == |words|
  {
    if words == [] then [] else [words[0][0]] + FirstChars(words[1..])
  }

  /** The space-separated words of a string, empty pieces dropped. */
  function Words(s: string): (r: seq<string>)
    ensures forall k :: 0 <= k < |r| ==> r[k] != [] && ' ' !in r[k]
  {
    NonEmpty(SplitOnSpace(s))
  }

  /**
   * Reference definition of word starts, by position: the characters of `s`
   * that are not a space and are preceded by a space or by the start of the
   * string (`afterSpace` says whether the position before `s` counts as one).
   */
  function WordStartsFrom(s: string, afterSpace: bool): string {
    if s == [] then []
    else (if s[0] != ' ' && afterSpace then [s[0]] else []) + WordStartsFrom(s[1..], s[0] == ' ')
  }

  function WordStarts(s: string): string {
    WordStartsFrom(s, true)
  }

  /** `filter(Boolean)` decides the first piece on its own and moves on to the rest. */
  lemma NonEmptyCons(x: string, rest: seq<string>)
    ensures NonEmpty([x] + rest) == (if x == [] then [] else [x]) + NonEmpty(rest)
  {
    FilterAppend([x], rest, IsNonEmpty);
    assert [x][1..] == [];
  }

  lemma {:induction false} SplitWordStarts(s: string)
    ensures FirstChars(NonEmpty(SplitOnSpace(s))) == WordStartsFrom(s, true)
    ensures FirstChars(NonEmpty(SplitOnSpace(s)[1..])) == WordStartsFrom(s, false)
  {
    if s != [] {
      SplitWordStarts(s[1..]);
      if s[0] == ' ' {
        SpaceStep(s);
      } else {
        WordStep(s);
      }
    }
  }

  /** A leading space only ends the first piece with an empty one. */
  lemma SpaceStep(s: string)
    requires s != [] && s[0] == ' '
    requires FirstChars(NonEmpty(SplitOnSpace(s[1..]))) == WordStartsFrom(s[1..], true)
    ensures FirstChars(NonEmpty(SplitOnSpace(s))) == WordStartsFrom(s, true)
    ensures FirstChars(NonEmpty(SplitOnSpace(s)[1..])) == WordStartsFrom(s, false)
  {
    var rest := SplitOnSpace(s[1..]);
    assert SplitOnSpace(s) == [""] + rest;
    assert SplitOnSpace(s)[1..] == rest;
    NonEmptyCons("", rest);
    assert NonEmpty(SplitOnSpace(s)) == NonEmpty(rest);
  }

  /** A leading non-space extends the first piece, which becomes a word starting with it. */
  lemma WordStep(s: string)
    requires s != [] && s[0] != ' '
    requires FirstChars(NonEmpty(SplitOnSpace(s[1..])[1..])) == WordStartsFrom(s[1..], false)
    ensures FirstChars(NonEmpty(SplitOnSpace(s))) == WordStartsFrom(s, true)
    ensures FirstChars(NonEmpty(SplitOnSpace(s)[1..])) == WordStartsFrom(s, false)
  {
    var rest := SplitOnSpace(s[1..]);
    var head := [s[0]] + rest[0];
    var tail := NonEmpty(rest[1..]);
    assert SplitOnSpace(s) == [head] + rest[1..];
    assert SplitOnSpace(s)[1..] == rest[1..];
    NonEmptyCons(head, rest[1..]);
    assert NonEmpty(SplitOnSpace(s)) == [head] + tail;
    assert ([head] + tail)[1..] == tail;
    assert FirstChars([head] + tail) == [s[0]] + FirstChars(tail);
  }

  /**
   * The first characters of the words of `s` are exactly the characters of
   * `s` that start a word.
   */
  lemma WordsFirstChars(s: string)
    ensures FirstChars(Words(s)) == WordStarts(s)
  {
    SplitWordStarts(s);
  }

  /** `s.indexOf(c)`: the first position holding `c`, or -1 when there is none. */
  function IndexOf(s: string, c: char): (r: int)
    ensures -1 <= r < |s|
    ensures r == -1 <==> c !in s
    ensures r >= 0 ==> s[r] == c && c !in s[..r]
  {
    if s == [] then -1
    else if s[0] == c then 0
    else
      var k := IndexOf(s[1..], c);
      assert s == [s[0]] + s[1..];
      if k == -1 then -1
      else
        assert s[..k + 1] == [s[0]] + s[1..][..k];
        k + 1
  }

  /**
   * `s.replace(from, to)` with one-character string arguments: only the
   * first occurrence of `from` is replaced; every other character is kept.
   */
  function ReplaceFirst(s: string, from: char, to: char): (r: string)
    ensures |r| == |s|
    ensures forall k :: 0 <= k < |s| ==> r[k] == if s[k] == from && from !in s[..k] then to else s[k]
  {
    var i := IndexOf(s, from);
    if i < 0 then s
    else
      var r := s[..i] + [to] + s[i + 1..];
      assert forall k :: 0 <= k < i ==> s[k] == s[..i][k];
      assert forall k :: i < k < |s| ==> s[..k][i] == from;
      r
  }
}
